=== FILE: README.md ===
# Plane frame and truss analysis engine, modelled in Dafny

This project models the core of a small plane structural-analysis program. The program runs
the direct stiffness method on 2-D structures made of TRUSS and FRAME bars. The model covers:

- **Tolerant comparisons** (`Tolerance`). Greater-than, greater-or-equal and equality with
  the absolute tolerance 0.00001 that the load-span guard uses.
- **DOF numbering** (`Numbering`). Every node owns three slots (TX, TY, RZ). Restrained slots
  are marked. Free slots are then numbered `0 .. U-1` and restrained slots `U .. N-1`, both
  in node order and then component order.
- **Element DOF lists and matrices** (`Bars`, `Elements`). Each bar's list of global equation
  indices has 2 components per end for a truss and 3 otherwise. The module also builds the
  local stiffness matrix `k` and the transformation `T` of each element type.
- **Fixed-end forces** (`FixedEnd`, `Bars`). A trapezoidal span load on a frame bar goes
  through the tolerance guard, a five-point Boole quadrature of the two end moments, and
  statics for the end shears. Several loads on one bar add up. `Statics` gives the net axial
  force, net transverse force and net moment about end 1 of six end forces, which the
  equilibrium lemmas compare.
- **Assembly** (`Assembly`, `LoadVectors`). `Tᵀ·k·T` and `Tᵀ·qF` are scatter-added through
  each bar's index list into the global `K` and `QF`. Nodal loads are added into `Q`. All
  three are split at `U`.
- **Recovery** (`Recovery`). Reactions come from the second block row. Each bar's end forces
  are `q = k·T·De (+ qF)`, with `De` gathered from `D = (Du; Dk)`.
- **Glue** (`Structure`). Bars become assembly elements. The elements the model builds
  satisfy everything the assembly loops need, and the assembled `K` is symmetric. The end
  forces recovered for a frame bar balance the span loads applied to it.

The arithmetic is exact `real`. The program's dictionaries are typed records (`Model`).
Each fatal lookup failure (`list.index` raising, a bar id that is not found) is a `Failure`
of a `Result`. The program's loops are modelled in two ways. The numbering passes, the
scatter-add loops, the nodal force loop and the element-force loop are methods. The restraint
marking (`MarkAll`), the per-bar index lists (`GenerateElementsDof`) and the bar-load pass
(`ApplyBarLoads`) are recursive functions. Most methods are tied by their `ensures` to a
reference definition given entry by entry, such as `StiffnessEntry`, `FixedEndEntry`,
`NodalEntry` or `Rank`, and the properties are lemmas about those definitions.
`SolveElementForces` is different: it is checked against `ElementForces`, which is the loop's
own formula `k·T·De (+ qF)`. What that formula means is stated by separate lemmas:
`ElementForcesInGlobalAxes`, `ElementForcesAtRest`, `FrameForcesBalance` and
`FrameForcesBalanceLoads`.

Points where the code's behaviour is easy to misread:

- The span guard at Routines.py:187 rejects `a >= b + tol`, although the message it prints
  at line 188 reads `a >=b`. The model follows the guard. See Findings.
- The far-end shear comes from moments about end 1 (`VB·L = R1·d1 + R2·d2 − MA − MB`), and
  then `VA` comes from the force balance.
- A bar load naming a missing bar makes the code index an empty list. The model reports
  this as `UnknownBar`.

## Model

| member | source | states |
|---|---|---|
| Model.TypeOf | Routines.py:316-325 | Exactly the names "TRUSS" and "FRAME" give the two known types. Any other name is kept as read in `Unrecognised`, so no recognised name ends up there. |
| Model.TypeNameRoundTrip | Routines.py:316-325 | Typing a name and naming the result gives the name back. Naming a well-typed type and typing the name gives the type back. |
| Common.IndexOf | Routines.py:50 | The first position holding the value, and `None` exactly when the value is absent, which is where `list.index` raises. |
| Tolerance.Trichotomy | Routines.py:21-28 | Exactly one of "a exceeds b by more than the tolerance", "a equals b within the tolerance" and "b exceeds a" holds. Tolerant equality is symmetric and is the band [b − tol, b + tol]. |
| Tolerance.GeBoundary | Routines.py:21-25 | Greater-or-equal adds only the boundary a = b + tol to greater-than. It never holds for a = b, while equality does. |
| Numbering.MarkRow | Routines.py:51-55 | A slot of the row becomes restrained exactly when its component's flag is 1. Every other slot keeps its state. |
| Numbering.MarkAll | Routines.py:46-56 | The pass fails exactly when some restraint names an unknown node, and it reports the first such node. On success a slot is restrained exactly when it was already restrained or some restraint fixes it. |
| Numbering.NumberPass | Routines.py:58-71 | One numbering pass gives the slots of the chosen kind consecutive indices from `start`, in slot order. Other slots keep their index. The next index is `start` plus the number of slots numbered. |
| Numbering.NumberSlots | Routines.py:57-71 | After the two passes every slot holds its reference `Rank`, and the first pass's counter equals the number of free slots. |
| Numbering.RankBlocks | Routines.py:58-71 | Free slots rank in `[0, U)` and restrained slots in `[U, N)`. |
| Numbering.RankPermutation | Routines.py:57-74 | The ranks form a permutation of `0 .. N-1`. An index is below `U` exactly when its slot is free. Within each block, indices increase with slot position. |
| Numbering.GenerateDof | Routines.py:30-78 | Fails exactly when a restraint names an unknown node, and reports the first one. On success: the table is a permutation with `N = 3·nodes`; an index is below `U` exactly when no restraint fixes its slot; `U` is the number of unfixed slots; indices increase in node-then-component order within each block. |
| Elements.Bending | Routines.py:139-142 | The chained coefficients are 2EI/L and 4EI/L, with 6EI/L² times L² equal to 6EI and 12EI/L³ times L³ equal to 12EI. |
| Elements.TrussStiffness | Routines.py:86-98 | A symmetric 4×4 matrix. Its only nonzero entries are ±EA/L at (0,0), (0,2), (2,0) and (2,2). |
| Elements.TrussAxialLaw | Routines.py:86-98 | The truss carries only the axial force EA/L·(u1 − u2), equal and opposite at its ends. The transverse components carry nothing. |
| Elements.TrussTransformationOrthogonal | Routines.py:104-114 | If C² + S² = 1, then Tᵀ·T = I for the truss transformation. |
| Elements.FrameStiffness | Routines.py:128-149 | A symmetric 6×6 matrix. Its axial block is ±EA/L. Its bending entries satisfy 4EI/L = 2·(2EI/L), (6EI/L²)·L = 3·(2EI/L) and (12EI/L³)·L = 2·(6EI/L²), with their closed forms. The remaining bending entries repeat these with the signs of the fixed-fixed beam: −12EI/L³ at (1, 4), 12EI/L³ at (4, 4), 6EI/L² at (1, 5), −6EI/L² at (2, 4) and (4, 5), 4EI/L at (5, 5). The axial rows have no other nonzero entries. |
| Elements.FrameRigidBodyModes | Routines.py:128-149 | An axial shift, a transverse shift or a rigid rotation about end 1 of the whole member produces no end force. |
| Elements.FrameElasticEquilibrium | Routines.py:128-149 | For any end displacements x, the end forces k·x of a frame member are self-balanced: no net axial force, no net transverse force and no net moment about end 1. |
| Elements.FrameTransformationOrthogonal | Routines.py:151-164 | If C² + S² = 1, then Tᵀ·T = I for the frame transformation. |
| Elements.FrameRotationsUnchanged | Routines.py:151-164 | The frame transformation rotates each end's (u, v) pair and passes both rotations through unchanged, whatever C and S are. |
| Elements.Matrices | Routines.py:315-326 | A bar gets a (k, T) pair exactly when its type is TRUSS or FRAME. The pair is square of size 4 or 6, and k is symmetric. |
| FixedEnd.SpanAsWritten | Routines.py:184-192 | The guard as written. Apart from the (0, 0) shorthand, it rejects exactly the spans that start at least one tolerance past their end or end more than one tolerance beyond the member. The (0, 0) shorthand is always accepted, as the span from `a` to `L`. Any other accepted span runs from `a` to `b`. No accepted span ends more than one tolerance past `L`. An ordinary accepted span may be shorter than the tolerance or even reversed by less than the tolerance. |
| FixedEnd.CheckSpan | Routines.py:184-192 | The corrected guard. An accepted span starts at `a` and ends at `L` for the (0, 0) shorthand, at `b` otherwise. It is longer than the tolerance and ends no more than one tolerance past `L`. A rejection means the span is too short or reversed, or ends beyond the member. |
| FixedEnd.CheckSpanRefinesAsWritten | Routines.py:184-192 | The corrected guard accepts exactly those spans that the written guard accepts and that are longer than the tolerance, and on those it gives the same span. |
| FixedEnd.BooleSumTerms | Routines.py:195-205 | The accumulated loop sum is Boole's five-term rule with weights 7, 32, 12, 32, 7. |
| FixedEnd.EndMoment | Routines.py:207-208 | Each end moment times L² is ±(b − a)/90 times its quadrature sum: positive at the near end, negative at the far end. |
| FixedEnd.RectangleAndTriangle | Routines.py:211-214 | The rectangle-plus-triangle split of the load has the trapezoid's resultant and first moment. |
| FixedEnd.EndForces | Routines.py:210-221 | The result has the shape [0, VA, MA, 0, VB, MB], with MA and MB by quadrature. VA + VB is the load's resultant, and VB·L + MA + MB is its first moment about end 1. |
| FixedEnd.FixedEndMomentAsWritten | Routines.py:179-223 | The routine as written. A rejected span gives zeros. An accepted span fails with a division by zero exactly when it is empty or L is 0. Entries 0 and 3 are always 0. When it succeeds on an accepted span, the result is the quadrature-and-statics vector `EndForces` of that span. On every accepted span it succeeds on, including reversed and shorter-than-tolerance ones, the shears add up to the load's resultant, and VB·L + MA + MB is the load's first moment about end 1. |
| FixedEnd.GuardAdmitsEmptySpan | Routines.py:185-196 | Every load with `a == b`, with `a` away from 0 and not past the end of the member, passes the written guard and divides by zero. |
| FixedEnd.EmptySpanExample | Routines.py:185-196 | L = 4 and a = b = 2 divides by zero. |
| FixedEnd.GuardAdmitsReversedSpan | Routines.py:187-189 | A span reversed by less than the tolerance passes the written guard, and the corrected guard rejects it. |
| FixedEnd.FixedEndForces | Routines.py:179-223 | The corrected routine. A rejected span gives zeros. An accepted span gives the `EndForces` vector of that span, with both moments by quadrature, and shears that sum to the resultant and moments that balance the first moment. Entries 0 and 3 are 0. |
| FixedEnd.FixedEndBalance | Routines.py:210-221 | The fixed-end forces hold the member in equilibrium under its load. Their net axial force is 0, their net transverse force is the load's resultant and their net moment about end 1 is its first moment. A rejected span gives zero totals. |
| FixedEnd.FixedEndForcesAgree | Routines.py:179-223 | Wherever the corrected guard accepts, and wherever the written guard rejects, the written routine succeeds with the corrected result. |
| FixedEnd.UniformMoments | Routines.py:194-208 | For a uniform load over the whole member the quadrature gives the exact end moments +wL²/12 and −wL²/12. |
| FixedEnd.UniformWholeMember | Routines.py:185-221 | The (0, 0) span with uniform w gives [0, wL/2, wL²/12, 0, wL/2, −wL²/12]. |
| Bars.BarDofs | Routines.py:240-256 | A bar's list fails exactly when an end node is missing from the table, and reports node 1 first. The list has 2·k entries, with k = 2 for a truss and 3 otherwise. |
| Bars.BarDofsSlots | Routines.py:250-254 | Position i < k holds node 1's slot i. Position k + i holds node 2's slot i. |
| Bars.BarDofsInRange | Routines.py:250-254 | With a valid table every listed index lies in [0, N). |
| Bars.BarDofsDistinct | Routines.py:250-254 | A bar between two different nodes lists no index twice. |
| Bars.GenerateElementsDof | Routines.py:229-258 | The lists of all bars, in order. The pass fails exactly when some bar's list fails, and reports the first failure. |
| Bars.FindBar | Routines.py:347-350 | The first bar with the id, and `None` exactly when no bar has it. |
| Bars.ApplyLoad | Routines.py:343-371 | An unknown bar is an error. Otherwise only the named bar can change, and only if it is a FRAME. |
| Bars.LandedStep | Routines.py:361-367 | One load's step. What the remaining loads make of the updated vectors is what all the loads make of the original ones: the new forces are added to the existing vector, or installed when there is none. |
| Bars.ApplyBarLoadsSums | Routines.py:333-373 | Fails exactly when some load names an unknown bar, and reports the first. On success a frame bar that receives loads holds its earlier vector plus the sum of those loads' fixed-end forces. Every other bar is unchanged. |
| Bars.LandedSumBalance | Routines.py:352-367 | A frame bar's accumulated fixed-end forces balance all the loads that land on it. Their net transverse force is the loads' total resultant and their net moment about end 1 is the loads' total first moment. |
| Structure.BarElement | Routines.py:315-326 | A bar becomes an assembly element exactly when its type is TRUSS or FRAME. The element keeps the bar's index list and fixed-end forces, and its k is symmetric with the matching size. |
| Structure.BarLoadsOnFramesOnly | Routines.py:352-371 | Starting from none, fixed-end forces end up only on FRAME bars, each with six entries. |
| Structure.BarElementValid | Routines.py:250-256 | The element of a recognised bar with known end nodes has in-range indices and a symmetric k. |
| Structure.ModelStiffnessSymmetric | Solver.py:26-36 | Elements built from a valid numbering are valid assembly input, and the assembled K is symmetric. |
| Structure.FrameForcesBalance | Solver.py:189-195 | The recovered end forces of a frame bar have the same net axial force, net transverse force and net moment about end 1 as its fixed-end forces alone, for any displacement vector. With no fixed-end forces all three are 0. |
| Structure.FrameForcesBalanceLoads | Solver.py:174-198 | After the bar-load pass, the end forces recovered for a frame bar balance the loads on it, for any displacements. There is no net axial force, the net transverse force is the loads' total resultant, and the net moment about end 1 is their total first moment. |
| Assembly.GlobalElementStiffnessSymmetric | Solver.py:31 | Tᵀ·k·T is symmetric whenever k is. |
| Assembly.ScatterRow | Solver.py:32-36 | Adding row i of Ke puts each entry (i, j) into global entry (dofs[i], dofs[j]). |
| Assembly.ScatterMatrix | Solver.py:32-36 | After one element's double loop, every global entry (p, q) has gained exactly the sum of the Ke[i][j] with dofs[i] = p and dofs[j] = q. |
| Assembly.AssembleGlobal | Solver.py:21-36 | The loop over all bars yields K[p][q] = the reference sum over bars and local pairs mapped to (p, q). |
| Assembly.GlobalStiffnessSymmetric | Solver.py:26-36 | If every local k is symmetric, then K is symmetric. |
| Assembly.GlobalStiffnessOrderIndependent | Solver.py:26-36 | Any permutation of the bar list gives the same K. |
| Assembly.UntouchedEntryZero | Solver.py:22-36 | An entry whose row or column no bar lists stays 0. |
| Assembly.Block | Solver.py:41-44 | A block has the sliced shape and holds exactly the corresponding entries of K. |
| Assembly.TilePartition | Solver.py:39-44 | K11, K12, K21 and K22 tile K exactly. |
| Assembly.PartitionTile | Solver.py:39-44 | Splitting a tiled matrix gives the four blocks back. |
| Assembly.AssembleStiffnessMatrix | Solver.py:19-50 | The blocks are those of the assembled K split at U, and they tile it back. |
| LoadVectors.Split | Solver.py:80-81 | The top half has U entries, and the two halves concatenate back to the vector. |
| LoadVectors.ScatterVector | Solver.py:76-78 | Each global entry p gains exactly the element entries listed at p. |
| LoadVectors.AssembleFixedEndVector | Solver.py:60-84 | QF is the reference vector, split at U. In it only bars with fixed-end forces contribute, each as Tᵀ·qF through its index list. |
| LoadVectors.FixedEndVectorConserves | Solver.py:69-78 | The entries of QF add up to the sum of every loaded element's Tᵀ·qF: scattering loses and duplicates nothing. |
| LoadVectors.AssembleForceVector | Solver.py:95-119 | Fails exactly when some nodal load names an unknown node, and reports the first. Otherwise the result is the reference Q, split at U. |
| LoadVectors.ForceVectorAtNode | Solver.py:106-113 | The entry of component c at a node holds the sum of component c of every load on that node. |
| Recovery.SolveReactions | Solver.py:156-167 | R has N − U entries and solves the second block row: K21·Du + K22·Dk + QF2 = Q2 + R. |
| Recovery.ReactionsScale | Solver.py:165 | Scaling the displacements, fixed-end forces and loads by c scales the reactions by c. With superposition, this makes the reactions linear in the whole loading. |
| Recovery.ReactionsSuperpose | Solver.py:165 | The reactions of superposed load cases and displacement states are the sum of the separate reactions. |
| Recovery.ReactionsAtRest | Solver.py:165 | With all inputs zero the reactions are zero. |
| Recovery.Equilibrium | Solver.py:145-167 | With Du solving the first block row and R from the second, the unpartitioned system K·D + QF = Q + (0; R) holds. |
| Recovery.AssembledEquilibrium | Solver.py:145-167 | The same, stated for the assembled global K. |
| Recovery.Gather | Solver.py:184-188 | De has one entry per listed index, and De[i] = D[dofs[i]]. |
| Recovery.SolveElementForces | Solver.py:174-198 | For every bar, the result is k·T·De (+ qF) with De gathered from D = (Du; Dk). |
| Recovery.ElementForcesInGlobalAxes | Solver.py:189-195 | Turned to global axes, the end forces are Tᵀ·q = Ke·De (+ Tᵀ·qF), the element's own share of K·D + QF. |
| Recovery.ElementForcesAtRest | Solver.py:192-195 | Zero displacements give q = qF, or zeros when the bar has no qF. |
| Recovery.GatherScatterAdjoint | Solver.py:186-188 | Gathering is the adjoint of scattering: the work of element forces on gathered displacements equals the work of their scattered vector on D. |

## Left out

- File reading (`IOFiles.py`) and the driver (`main.py`) are not part of this model. They read input, wire the calls together and print results.
- Bar geometry is left out. The length `L = sqrt(dx² + dy²)` and the cosines `C`, `S` (Routines.py:293-297) are fields of `Bar`. The model requires `L > 0` wherever it divides by it and `C² + S² = 1` where orthogonality is stated. The program divides by zero for a zero-length bar.
- The property and material lookups (Routines.py:305-313) are left out. `A`, `E` and `I` are fields of `Bar`.
- `SolveDisplacements` (Solver.py:134-143) inverts K11 with a foreign numerical routine. It is represented only by the predicate `Recovery.SolvesFirstRow`, which describes what its result satisfies. Matrix inversion and singularity are not modelled.
- Floating point is not modelled: every quantity is an exact `real`. The division by `L ** 2.0` is written as two divisions by `L`, which is equal over the reals.
- The `print` diagnostics (Routines.py:188, 191, 370-371) are left out.
- FixedEnd.EndMoment: the quadrature is not proved equal to the closed-form fixed-end-moment integral for a general trapezoidal load. That is proved only for a uniform load over the whole member (`FixedEnd.UniformMoments`).
- Elements.Matrices: a bar whose type is neither TRUSS nor FRAME gets no matrices. In Routines.py its later use fails at the assembly. `Structure.BarElement` therefore builds no element for it, and the assembly lemmas are stated for elements that exist.
- Bars.ApplyBarLoadsSums: a bar load naming a missing bar is a reported `UnknownBar` error, where the program fails on an empty list. Fixed-end forces come from the corrected guard (`FixedEnd.FixedEndForces`).
- Bars.ApplyLoad: one load's step; like `Bars.ApplyBarLoadsSums`, it reports a missing bar as `UnknownBar` and takes its fixed-end forces from the corrected guard.
- Bars.LandedStep: the same two departures hold for the step it describes, which adds the corrected-guard fixed-end forces of the landed load.
- Bars.LoadVector: the fixed-end forces of one load come from the corrected guard (`FixedEnd.FixedEndForces`), so an empty span gives zeros instead of a division by zero.
- The model does not check that `GenerateElementMatrices` runs before the bar-load step. The bar-load step requires every bar's length to be positive, which that step provides.

## Findings

| source | as written | input that shows it | evidently intended | confidence | as-written member | corrected member |
|---|---|---|---|---|---|---|
| Routines.py:24-25, 185-196 | The guard rejects only `a >= b + tol`. An empty span `a == b` away from 0 passes every branch, and the slope `(wb-wa)/(b-a)` at line 196 then divides by zero. Separately, a span reversed by less than the tolerance (`b < a < b + tol`) also passes; it does not divide by zero but is integrated backwards and gives a nonzero result (`FixedEnd.GuardAdmitsReversedSpan`). | L = 4, a = b = 2, wa = wb = 1 | Reject every span whose end is not more than one tolerance past its start, after resolving the (0, 0) shorthand. | not executed | FixedEnd.FixedEndMomentAsWritten, FixedEnd.GuardAdmitsEmptySpan, FixedEnd.EmptySpanExample | FixedEnd.CheckSpan, FixedEnd.FixedEndForces, FixedEnd.CheckSpanRefinesAsWritten |

=== FILE: assembly.dfy ===
/** Global assembly: every element's stiffness Tᵀ·k·T and every equivalent
    load vector are scatter-added into dense global arrays through the
    element's equation indices, and the results are split at U into the block
    of unknown displacements and the block of prescribed ones. */
module Assembly {
  import opened Common
  import opened LinAlg

  /** What the assembly reads from one bar: its equation indices, its local
      stiffness and transformation matrices, and its fixed-end forces if any. */
  datatype Element = Element(dofs: seq<int>, k: Matrix, t: Matrix, qf: Option<Vector>)

  /** The matrices and the optional fixed-end vector match the index list. */
  predicate Shaped(e: Element)
  {
    var m := |e.dofs|;
    IsMatrix(e.k, m, m) && IsMatrix(e.t, m, m) && (e.qf.Some? ==> |e.qf.value| == m)
  }

  /** A shaped element whose equation indices all lie in [0, n). */
  predicate ValidElement(e: Element, n: nat)
  {
    Shaped(e) && forall i :: 0 <= i < |e.dofs| ==> 0 <= e.dofs[i] < n
  }

  predicate AllShaped(es: seq<Element>)
  {
    forall b :: 0 <= b < |es| ==> Shaped(es[b])
  }

  predicate AllValid(es: seq<Element>, n: nat)
  {
    forall b :: 0 <= b < |es| ==> ValidElement(es[b], n)
  }

  /** The element stiffness in global orientation, Tᵀ·k·T. */
  function GlobalElementStiffness(e: Element): (ke: Matrix)
    requires Shaped(e)
    ensures IsMatrix(ke, |e.dofs|, |e.dofs|)
  {
    var m := |e.dofs|;
    MatMul(MatMul(Transpose(e.t, m), e.k, m), e.t, m)
  }

  /** Tᵀ·k·T is symmetric whenever k is. */
  lemma GlobalElementStiffnessSymmetric(e: Element)
    requires Shaped(e) && IsSymmetric(e.k)
    ensures IsSymmetric(GlobalElementStiffness(e))
  {
    var m := |e.dofs|;
    var tt := Transpose(e.t, m);
    var ke := GlobalElementStiffness(e);
    if m > 0 {
      MatMulAssoc(tt, e.k, e.t, m);
      assert ke == MatMul(tt, MatMul(e.k, e.t, m), m);
      TransposeOfProduct(tt, MatMul(e.k, e.t, m), m);
      TransposeOfProduct(e.k, e.t, m);
      TransposeTwice(e.t, m);
      SymmetricTranspose(e.k);
      assert Transpose(ke, m) == ke;
      forall i, j | 0 <= i < m && 0 <= j < m
        ensures ke[i][j] == ke[j][i]
      {
        assert Transpose(ke, m)[i][j] == ke[j][i];
      }
    }
  }

  // ---------------------------------------------------------------------------
  // Reference: what each global entry receives

  /** The part of `ke` that lands on global entry (p, q): entries whose row
      index maps to p and column index maps to q, zeros elsewhere. */
  function Masked(ke: Matrix, dofs: seq<int>, p: int, q: int): (w: Matrix)
    requires IsMatrix(ke, |dofs|, |dofs|)
    ensures IsMatrix(w, |dofs|, |dofs|)
    ensures forall i, j :: 0 <= i < |dofs| && 0 <= j < |dofs| ==>
      w[i][j] == if dofs[i] == p && dofs[j] == q then ke[i][j] else 0.0
  {
    seq(|dofs|, i requires 0 <= i < |dofs| =>
      seq(|dofs|, j requires 0 <= j < |dofs| => if dofs[i] == p && dofs[j] == q then ke[i][j] else 0.0))
  }

  /** What one element adds to global entry (p, q). */
  function Contribution(ke: Matrix, dofs: seq<int>, p: int, q: int): real
    requires IsMatrix(ke, |dofs|, |dofs|)
  {
    Total(Masked(ke, dofs, p, q))
  }

  /** Global entry (p, q): the sum over elements and over local pairs (i, j)
      with dofs[i] = p and dofs[j] = q of Ke[i][j]. */
  function StiffnessEntry(es: seq<Element>, p: int, q: int): real
    requires AllShaped(es)
    decreases |es|
  {
    if |es| == 0 then 0.0
    else Contribution(GlobalElementStiffness(es[0]), es[0].dofs, p, q) + StiffnessEntry(es[1..], p, q)
  }

  /** The assembled global stiffness matrix, entry by entry. */
  function GlobalStiffness(n: nat, es: seq<Element>): (k: Matrix)
    requires AllShaped(es)
    ensures IsMatrix(k, n, n) && forall p, q :: 0 <= p < n && 0 <= q < n ==> k[p][q] == StiffnessEntry(es, p, q)
  {
    seq(n, p requires 0 <= p < n => seq(n, q requires 0 <= q < n => StiffnessEntry(es, p, q)))
  }

  lemma {:induction false} StiffnessEntryAppend(a: seq<Element>, b: seq<Element>, p: int, q: int)
    requires AllShaped(a) && AllShaped(b)
    ensures AllShaped(a + b)
    ensures StiffnessEntry(a + b, p, q) == StiffnessEntry(a, p, q) + StiffnessEntry(b, p, q)
    decreases |a|
  {
    if |a| > 0 {
      assert (a + b)[1..] == a[1..] + b;
      StiffnessEntryAppend(a[1..], b, p, q);
    } else {
      assert a + b == b;
    }
  }

  // ---------------------------------------------------------------------------
  // The assembly loops

  /** One more pair (i, j) of row i adds its masked entry to the running row sum. */
  lemma MaskedRowStep(ke: Matrix, dofs: seq<int>, p: int, q: int, i: nat, j: nat)
    requires IsMatrix(ke, |dofs|, |dofs|) && i < |dofs| && j < |dofs|
    ensures SumTo(Masked(ke, dofs, p, q)[i], j + 1)
      == SumTo(Masked(ke, dofs, p, q)[i], j) + if dofs[i] == p && dofs[j] == q then ke[i][j] else 0.0
  {
  }

  /** Finishing row i adds its whole masked sum to the running total. */
  lemma MaskedRowsStep(ke: Matrix, dofs: seq<int>, p: int, q: int, i: nat)
    requires IsMatrix(ke, |dofs|, |dofs|) && i < |dofs|
    ensures SumTo(RowSums(Masked(ke, dofs, p, q)), i + 1)
      == SumTo(RowSums(Masked(ke, dofs, p, q)), i) + SumTo(Masked(ke, dofs, p, q)[i], |dofs|)
  {
  }

  /** Adds row i of an element's matrix into `k0`, column by column: entry
      (i, j) goes to equation pair (dofs[i], dofs[j]). */
  method ScatterRow(k0: Matrix, n: nat, ke: Matrix, dofs: seq<int>, i: nat) returns (k: Matrix)
    requires IsMatrix(k0, n, n) && IsMatrix(ke, |dofs|, |dofs|) && i < |dofs|
    requires forall l :: 0 <= l < |dofs| ==> 0 <= dofs[l] < n
    ensures IsMatrix(k, n, n)
    ensures forall p, q :: 0 <= p < n && 0 <= q < n ==> k[p][q] == k0[p][q] + SumTo(Masked(ke, dofs, p, q)[i], |dofs|)
  {
    k := k0;
    var j := 0;
    while j < |dofs|
      invariant 0 <= j <= |dofs| && IsMatrix(k, n, n)
      invariant forall p, q :: 0 <= p < n && 0 <= q < n ==> k[p][q] == k0[p][q] + SumTo(Masked(ke, dofs, p, q)[i], j)
    {
      var ii, jj := dofs[i], dofs[j];
      var before := k;
      k := k[ii := k[ii][jj := k[ii][jj] + ke[i][j]]];
      forall p, q | 0 <= p < n && 0 <= q < n
        ensures k[p][q] == before[p][q] + if ii == p && jj == q then ke[i][j] else 0.0
      {
      }
      forall p, q | 0 <= p < n && 0 <= q < n
        ensures k[p][q] == k0[p][q] + SumTo(Masked(ke, dofs, p, q)[i], j + 1)
      {
        MaskedRowStep(ke, dofs, p, q, i, j);
      }
      j := j + 1;
    }
  }

  /** Adds one element's matrix into `k0` through its index list, pair by pair
      in row-major order, as the program's double loop does. */
  method ScatterMatrix(k0: Matrix, n: nat, ke: Matrix, dofs: seq<int>) returns (k: Matrix)
    requires IsMatrix(k0, n, n) && IsMatrix(ke, |dofs|, |dofs|)
    requires forall i :: 0 <= i < |dofs| ==> 0 <= dofs[i] < n
    ensures IsMatrix(k, n, n)
    ensures forall p, q :: 0 <= p < n && 0 <= q < n ==> k[p][q] == k0[p][q] + Contribution(ke, dofs, p, q)
  {
    k := k0;
    var i := 0;
    while i < |dofs|
      invariant 0 <= i <= |dofs| && IsMatrix(k, n, n)
      invariant forall p, q :: 0 <= p < n && 0 <= q < n ==>
        k[p][q] == k0[p][q] + SumTo(RowSums(Masked(ke, dofs, p, q)), i)
    {
      k := ScatterRow(k, n, ke, dofs, i);
      forall p, q | 0 <= p < n && 0 <= q < n
        ensures k[p][q] == k0[p][q] + SumTo(RowSums(Masked(ke, dofs, p, q)), i + 1)
      {
        MaskedRowsStep(ke, dofs, p, q, i);
      }
      i := i + 1;
    }
    forall p, q | 0 <= p < n && 0 <= q < n
      ensures k[p][q] == k0[p][q] + Contribution(ke, dofs, p, q)
    {
      assert |RowSums(Masked(ke, dofs, p, q))| == |dofs|;
    }
  }

  /** The program's stiffness loop over all bars, before partitioning. */
  method AssembleGlobal(n: nat, es: seq<Element>) returns (k: Matrix)
    requires AllValid(es, n)
    ensures k == GlobalStiffness(n, es)
  {
    k := ZeroMatrix(n, n);
    var b := 0;
    while b < |es|
      invariant 0 <= b <= |es| && IsMatrix(k, n, n)
      invariant forall p, q :: 0 <= p < n && 0 <= q < n ==> k[p][q] == StiffnessEntry(es[..b], p, q)
    {
      var e := es[b];
      k := ScatterMatrix(k, n, GlobalElementStiffness(e), e.dofs);
      forall p, q | 0 <= p < n && 0 <= q < n
        ensures k[p][q] == StiffnessEntry(es[..b + 1], p, q)
      {
        assert es[..b + 1] == es[..b] + [e];
        StiffnessEntryAppend(es[..b], [e], p, q);
      }
      b := b + 1;
    }
    assert es[..|es|] == es;
    MatrixExt(k, GlobalStiffness(n, es), n, n);
  }

  // ---------------------------------------------------------------------------
  // Properties of the assembled matrix

  /** Masking at (q, p) is the transpose of masking at (p, q) when `ke` is symmetric. */
  lemma ContributionSymmetric(ke: Matrix, dofs: seq<int>, p: int, q: int)
    requires IsMatrix(ke, |dofs|, |dofs|) && IsSymmetric(ke)
    ensures Contribution(ke, dofs, p, q) == Contribution(ke, dofs, q, p)
  {
    var m := |dofs|;
    MatrixExt(Masked(ke, dofs, q, p), Transpose(Masked(ke, dofs, p, q), m), m, m);
    TotalTranspose(Masked(ke, dofs, p, q), m);
  }

  lemma {:induction false} StiffnessEntrySymmetric(es: seq<Element>, p: int, q: int)
    requires AllShaped(es) && forall b :: 0 <= b < |es| ==> IsSymmetric(es[b].k)
    ensures StiffnessEntry(es, p, q) == StiffnessEntry(es, q, p)
    decreases |es|
  {
    if |es| > 0 {
      GlobalElementStiffnessSymmetric(es[0]);
      ContributionSymmetric(GlobalElementStiffness(es[0]), es[0].dofs, p, q);
      StiffnessEntrySymmetric(es[1..], p, q);
    }
  }

  /** When every local stiffness is symmetric, so is the global matrix. */
  lemma GlobalStiffnessSymmetric(n: nat, es: seq<Element>)
    requires AllShaped(es) && forall b :: 0 <= b < |es| ==> IsSymmetric(es[b].k)
    ensures IsSymmetric(GlobalStiffness(n, es))
  {
    forall p, q | 0 <= p < n && 0 <= q < n
      ensures StiffnessEntry(es, p, q) == StiffnessEntry(es, q, p)
    {
      StiffnessEntrySymmetric(es, p, q);
    }
  }

  /** Rearranging the bars keeps every one of them shaped. */
  lemma SameElementsShaped(a: seq<Element>, b: seq<Element>)
    requires AllShaped(a) && multiset(a) == multiset(b)
    ensures AllShaped(b)
  {
    forall j | 0 <= j < |b|
      ensures Shaped(b[j])
    {
      assert b[j] in multiset(a);
    }
  }

  /** Taking bar k out of the list removes exactly its contribution. */
  lemma StiffnessEntryRemove(b: seq<Element>, k: nat, p: int, q: int)
    requires AllShaped(b) && k < |b|
    ensures AllShaped(b[..k] + b[k + 1..])
    ensures StiffnessEntry(b, p, q)
      == Contribution(GlobalElementStiffness(b[k]), b[k].dofs, p, q) + StiffnessEntry(b[..k] + b[k + 1..], p, q)
  {
    var front, back := b[..k], b[k + 1..];
    assert b == front + [b[k]] + back;
    assert AllShaped(front) && AllShaped(back);
    StiffnessEntryAppend(front, back, p, q);
    StiffnessEntryAppend(front, [b[k]], p, q);
    StiffnessEntryAppend(front + [b[k]], back, p, q);
    assert StiffnessEntry([b[k]], p, q) == Contribution(GlobalElementStiffness(b[k]), b[k].dofs, p, q) + StiffnessEntry([b[k]][1..], p, q);
  }

  /** Removing the head of one list and a matching entry of the other keeps the multisets equal. */
  lemma MultisetRemoveFirst<T>(a: seq<T>, b: seq<T>, k: nat)
    requires |a| > 0 && k < |b| && b[k] == a[0] && multiset(a) == multiset(b)
    ensures multiset(a[1..]) == multiset(b[..k] + b[k + 1..])
  {
    assert a == [a[0]] + a[1..];
    assert b == b[..k] + [b[k]] + b[k + 1..];
    calc {
      multiset(a[1..]);
      multiset(a) - multiset{a[0]};
      multiset(b) - multiset{b[k]};
      multiset(b[..k]) + multiset(b[k + 1..]);
      multiset(b[..k] + b[k + 1..]);
    }
  }

  /** The accumulation does not depend on the order of the bars. */
  lemma {:induction false} StiffnessEntryPermutation(a: seq<Element>, b: seq<Element>, p: int, q: int)
    requires AllShaped(a) && AllShaped(b) && multiset(a) == multiset(b)
    ensures StiffnessEntry(a, p, q) == StiffnessEntry(b, p, q)
    decreases |a|
  {
    if |a| == 0 {
      assert |b| == |multiset(b)| == 0;
    } else {
      var x := a[0];
      assert x in multiset(b);
      var k :| 0 <= k < |b| && b[k] == x;
      StiffnessEntryRemove(b, k, p, q);
      var rest := b[..k] + b[k + 1..];
      MultisetRemoveFirst(a, b, k);
      assert AllShaped(a[1..]);
      StiffnessEntryPermutation(a[1..], rest, p, q);
    }
  }

  /** Permuting the bar list gives the same global matrix. */
  lemma GlobalStiffnessOrderIndependent(n: nat, a: seq<Element>, b: seq<Element>)
    requires AllShaped(a) && multiset(a) == multiset(b)
    ensures AllShaped(b) && GlobalStiffness(n, a) == GlobalStiffness(n, b)
  {
    SameElementsShaped(a, b);
    forall p, q | 0 <= p < n && 0 <= q < n
      ensures StiffnessEntry(a, p, q) == StiffnessEntry(b, p, q)
    {
      StiffnessEntryPermutation(a, b, p, q);
    }
    MatrixExt(GlobalStiffness(n, a), GlobalStiffness(n, b), n, n);
  }

  /** A matrix of zeros totals zero. */
  lemma TotalZero(m: Matrix)
    requires forall i, j :: 0 <= i < |m| && 0 <= j < |m[i]| ==> m[i][j] == 0.0
    ensures Total(m) == 0.0
  {
    forall i | 0 <= i < |m|
      ensures RowSums(m)[i] == 0.0
    {
      SumZero(m[i]);
    }
    SumZero(RowSums(m));
  }

  /** Element e does not list equation p. */
  predicate Misses(e: Element, p: int)
  {
    forall i :: 0 <= i < |e.dofs| ==> e.dofs[i] != p
  }

  /** An entry whose row or column no bar lists stays zero. */
  lemma {:induction false} UntouchedEntryZero(es: seq<Element>, p: int, q: int)
    requires AllShaped(es)
    requires (forall b :: 0 <= b < |es| ==> Misses(es[b], p)) || (forall b :: 0 <= b < |es| ==> Misses(es[b], q))
    ensures StiffnessEntry(es, p, q) == 0.0
    decreases |es|
  {
    if |es| > 0 {
      TotalZero(Masked(GlobalElementStiffness(es[0]), es[0].dofs, p, q));
      assert forall b :: 0 < b < |es| ==> es[b] == es[1..][b - 1];
      UntouchedEntryZero(es[1..], p, q);
    }
  }

  // ---------------------------------------------------------------------------
  // Partitioning at U

  /** The four blocks of a matrix split at U. */
  datatype Blocks = Blocks(k11: Matrix, k12: Matrix, k21: Matrix, k22: Matrix)

  /** Rows r0 .. r1 - 1 and columns c0 .. c1 - 1 of `k`. */
  function Block(k: Matrix, n: nat, r0: nat, r1: nat, c0: nat, c1: nat): (b: Matrix)
    requires IsMatrix(k, n, n) && r0 <= r1 <= n && c0 <= c1 <= n
    ensures IsMatrix(b, r1 - r0, c1 - c0)
    ensures forall i, j :: 0 <= i < r1 - r0 && 0 <= j < c1 - c0 ==> b[i][j] == k[r0 + i][c0 + j]
  {
    seq(r1 - r0, i requires 0 <= i < r1 - r0 => k[r0 + i][c0..c1])
  }

  /** K11, K12, K21, K22 of an n x n matrix split at u. */
  function Partition(k: Matrix, n: nat, u: nat): (b: Blocks)
    requires IsMatrix(k, n, n) && u <= n
    ensures IsMatrix(b.k11, u, u) && IsMatrix(b.k12, u, n - u)
    ensures IsMatrix(b.k21, n - u, u) && IsMatrix(b.k22, n - u, n - u)
  {
    Blocks(Block(k, n, 0, u, 0, u), Block(k, n, 0, u, u, n), Block(k, n, u, n, 0, u), Block(k, n, u, n, u, n))
  }

  /** Reassembles the four blocks into one matrix. */
  function Tile(b: Blocks, n: nat, u: nat): (k: Matrix)
    requires u <= n
    requires IsMatrix(b.k11, u, u) && IsMatrix(b.k12, u, n - u)
    requires IsMatrix(b.k21, n - u, u) && IsMatrix(b.k22, n - u, n - u)
    ensures IsMatrix(k, n, n)
  {
    seq(n, i requires 0 <= i < n => if i < u then b.k11[i] + b.k12[i] else b.k21[i - u] + b.k22[i - u])
  }

  /** The blocks tile the matrix exactly. */
  lemma TilePartition(k: Matrix, n: nat, u: nat)
    requires IsMatrix(k, n, n) && u <= n
    ensures Tile(Partition(k, n, u), n, u) == k
  {
    var t := Tile(Partition(k, n, u), n, u);
    forall i, j | 0 <= i < n && 0 <= j < n
      ensures t[i][j] == k[i][j]
    {
      if i < u {
        assert t[i] == Partition(k, n, u).k11[i] + Partition(k, n, u).k12[i];
      } else {
        assert t[i] == Partition(k, n, u).k21[i - u] + Partition(k, n, u).k22[i - u];
      }
    }
    MatrixExt(t, k, n, n);
  }

  /** The first u rows of a tiled matrix split back into K11 and K12. */
  lemma TileTop(b: Blocks, n: nat, u: nat)
    requires u <= n
    requires IsMatrix(b.k11, u, u) && IsMatrix(b.k12, u, n - u)
    requires IsMatrix(b.k21, n - u, u) && IsMatrix(b.k22, n - u, n - u)
    ensures Block(Tile(b, n, u), n, 0, u, 0, u) == b.k11
    ensures Block(Tile(b, n, u), n, 0, u, u, n) == b.k12
  {
    var k := Tile(b, n, u);
    forall i | 0 <= i < u ensures k[i] == b.k11[i] + b.k12[i] {
    }
    MatrixExt(Block(k, n, 0, u, 0, u), b.k11, u, u);
    MatrixExt(Block(k, n, 0, u, u, n), b.k12, u, n - u);
  }

  /** The last n - u rows of a tiled matrix split back into K21 and K22. */
  lemma TileBottom(b: Blocks, n: nat, u: nat)
    requires u <= n
    requires IsMatrix(b.k11, u, u) && IsMatrix(b.k12, u, n - u)
    requires IsMatrix(b.k21, n - u, u) && IsMatrix(b.k22, n - u, n - u)
    ensures Block(Tile(b, n, u), n, u, n, 0, u) == b.k21
    ensures Block(Tile(b, n, u), n, u, n, u, n) == b.k22
  {
    var k := Tile(b, n, u);
    forall i | 0 <= i < n - u ensures k[u + i] == b.k21[i] + b.k22[i] {
    }
    MatrixExt(Block(k, n, u, n, 0, u), b.k21, n - u, u);
    MatrixExt(Block(k, n, u, n, u, n), b.k22, n - u, n - u);
  }

  /** Splitting a tiled matrix gives the blocks back. */
  lemma PartitionTile(b: Blocks, n: nat, u: nat)
    requires u <= n
    requires IsMatrix(b.k11, u, u) && IsMatrix(b.k12, u, n - u)
    requires IsMatrix(b.k21, n - u, u) && IsMatrix(b.k22, n - u, n - u)
    ensures Partition(Tile(b, n, u), n, u) == b
  {
    TileTop(b, n, u);
    TileBottom(b, n, u);
  }

  /** AssembleStiffnessMatrix in Solver.py: assemble, then split at U. */
  method AssembleStiffnessMatrix(n: nat, u: nat, es: seq<Element>) returns (blocks: Blocks)
    requires u <= n && AllValid(es, n)
    ensures blocks == Partition(GlobalStiffness(n, es), n, u)
    ensures Tile(blocks, n, u) == GlobalStiffness(n, es)
  {
    var k := AssembleGlobal(n, es);
    blocks := Partition(k, n, u);
    TilePartition(k, n, u);
  }
}

=== FILE: bars.dfy ===
/** Per-bar derived data: the global equation indices of each bar's end
    components, and the fixed-end force vectors accumulated from the bar loads. */
module Bars {
  import opened Common
  import opened LinAlg
  import opened Model
  import opened Numbering
  import opened Elements
  import opened FixedEnd
  import opened Statics

  // ---------------------------------------------------------------------------
  // Element DOF lists

  /** The first `k` equation indices of the node in row `row`. */
  function EndDofs(t: DofTable, row: nat, k: nat): (r: seq<int>)
    requires ThreeSlotsPerNode(t) && row < |t.nodeNumbers| && k <= 3
    ensures |r| == k && forall c :: 0 <= c < k ==> r[c] == t.dofs[3 * row + c]
  {
    seq(k, c requires 0 <= c < k => NodeDof(t, row, c))
  }

  /** A bar's equation indices: node 1's first k components, then node 2's,
      with k = 2 for a truss and 3 for any other type. A bar end naming a node
      missing from the table is an error, node 1 checked first. */
  function BarDofs(t: DofTable, bar: Bar): (r: Result<seq<int>, Error>)
    requires ThreeSlotsPerNode(t)
    ensures r.Failure? <==> bar.node1 !in t.nodeNumbers || bar.node2 !in t.nodeNumbers
    ensures r.Failure? ==> r.error == UnknownNode(if bar.node1 !in t.nodeNumbers then bar.node1 else bar.node2)
    ensures r.Success? ==> |r.value| == 2 * DofsPerEnd(bar.kind)
  {
    var k := DofsPerEnd(bar.kind);
    match IndexOf(t.nodeNumbers, bar.node1)
    case None => Failure(UnknownNode(bar.node1))
    case Some(row1) =>
      match IndexOf(t.nodeNumbers, bar.node2)
      case None => Failure(UnknownNode(bar.node2))
      case Some(row2) => Success(EndDofs(t, row1, k) + EndDofs(t, row2, k))
  }

  /** Component c of end 1 sits at position c of a bar's list, component c of
      end 2 at position k + c, with k components per end. */
  lemma BarDofsSlots(t: DofTable, bar: Bar)
    requires ThreeSlotsPerNode(t) && BarDofs(t, bar).Success?
    ensures bar.node1 in t.nodeNumbers && bar.node2 in t.nodeNumbers
    ensures var k := DofsPerEnd(bar.kind); var d := BarDofs(t, bar).value;
      (forall i :: 0 <= i < k ==> d[i] == t.dofs[3 * Row(t, bar.node1) + i])
      && (forall i :: k <= i < 2 * k ==> d[i] == t.dofs[3 * Row(t, bar.node2) + (i - k)])
  {
    var k := DofsPerEnd(bar.kind);
    var d := BarDofs(t, bar).value;
    assert d == EndDofs(t, Row(t, bar.node1), k) + EndDofs(t, Row(t, bar.node2), k);
  }

  /** With a valid table every entry is an equation index in [0, N). */
  lemma BarDofsInRange(t: DofTable, bar: Bar)
    requires ValidTable(t) && BarDofs(t, bar).Success?
    ensures forall i :: 0 <= i < |BarDofs(t, bar).value| ==> 0 <= BarDofs(t, bar).value[i] < t.dofCount
  {
    BarDofsSlots(t, bar);
    var k := DofsPerEnd(bar.kind);
    var d := BarDofs(t, bar).value;
    assert forall i :: 0 <= i < |d| ==> d[i] in t.dofs;
  }

  /** Position i of a bar's list names slot c of node row r: the first k
      positions belong to end 1, the next k to end 2. */
  lemma BarDofsAt(t: DofTable, bar: Bar, i: nat)
    requires ThreeSlotsPerNode(t) && BarDofs(t, bar).Success? && i < |BarDofs(t, bar).value|
    ensures bar.node1 in t.nodeNumbers && bar.node2 in t.nodeNumbers
    ensures var k := DofsPerEnd(bar.kind);
      var r := if i < k then Row(t, bar.node1) else Row(t, bar.node2);
      var c := if i < k then i else i - k;
      c < 3 && 3 * r + c < |t.dofs| && BarDofs(t, bar).value[i] == t.dofs[3 * r + c]
  {
    BarDofsSlots(t, bar);
  }

  /** A bar between two different nodes never lists an equation twice. */
  lemma BarDofsDistinct(t: DofTable, bar: Bar)
    requires ValidTable(t) && BarDofs(t, bar).Success? && bar.node1 != bar.node2
    ensures var d := BarDofs(t, bar).value;
      forall i, j :: 0 <= i < j < |d| ==> d[i] != d[j]
  {
    var k := DofsPerEnd(bar.kind);
    var d := BarDofs(t, bar).value;
    forall i, j | 0 <= i < j < |d|
      ensures d[i] != d[j]
    {
      BarDofsAt(t, bar, i);
      BarDofsAt(t, bar, j);
      var ri, ci := if i < k then Row(t, bar.node1) else Row(t, bar.node2), if i < k then i else i - k;
      var rj, cj := if j < k then Row(t, bar.node1) else Row(t, bar.node2), if j < k then j else j - k;
      SlotsDistinct(ri, ci, rj, cj);
      DistinctEntries(t.dofs, 3 * ri + ci, 3 * rj + cj);
    }
  }

  /** Slot c of row r, three slots per row, is a different slot for a different (r, c). */
  lemma SlotsDistinct(r1: nat, c1: nat, r2: nat, c2: nat)
    requires c1 < 3 && c2 < 3 && (r1 != r2 || c1 != c2)
    ensures 3 * r1 + c1 != 3 * r2 + c2
  {
  }

  /** Two different positions of a permutation hold different values. */
  lemma DistinctEntries(d: seq<int>, a: nat, b: nat)
    requires IsPermutation(d) && a < |d| && b < |d| && a != b
    ensures d[a] != d[b]
  {
    if b < a {
      assert d[b] != d[a];
    }
  }

  /** The lists of all bars, in bar order; the first bar with an unknown end
      node stops the pass. */
  function GenerateElementsDof(t: DofTable, bars: seq<Bar>): (r: Result<seq<seq<int>>, Error>)
    requires ThreeSlotsPerNode(t)
    ensures r.Failure? <==> exists i :: 0 <= i < |bars| && BarDofs(t, bars[i]).Failure?
    ensures r.Failure? ==>
      exists i :: 0 <= i < |bars| && BarDofs(t, bars[i]).Failure? && r.error == BarDofs(t, bars[i]).error
                 && forall j :: 0 <= j < i ==> BarDofs(t, bars[j]).Success?
    ensures r.Success? ==>
      |r.value| == |bars| && forall i :: 0 <= i < |bars| ==> BarDofs(t, bars[i]) == Success(r.value[i])
  {
    if |bars| == 0 then Success([])
    else
      match BarDofs(t, bars[0])
      case Failure(e) => Failure(e)
      case Success(d) =>
        match GenerateElementsDof(t, bars[1..])
        case Failure(e) =>
          assert forall i :: 0 < i < |bars| ==> bars[i] == bars[1..][i - 1];
          Failure(e)
        case Success(ds) =>
          assert forall i :: 0 < i < |bars| ==> bars[i] == bars[1..][i - 1];
          Success([d] + ds)
  }

  // ---------------------------------------------------------------------------
  // Fixed-end forces from bar loads

  function BarIds(bars: seq<Bar>): (ids: seq<int>)
    ensures |ids| == |bars| && forall i :: 0 <= i < |bars| ==> ids[i] == bars[i].id
  {
    seq(|bars|, i requires 0 <= i < |bars| => bars[i].id)
  }

  /** The position of the first bar with the given id. */
  function FindBar(bars: seq<Bar>, id: int): (r: Option<nat>)
    ensures r.Some? ==>
      r.value < |bars| && bars[r.value].id == id && forall j :: 0 <= j < r.value ==> bars[j].id != id
    ensures r.None? <==> forall j :: 0 <= j < |bars| ==> bars[j].id != id
  {
    IndexOf(BarIds(bars), id)
  }

  /** Every bar has a positive length (geometry is computed before loads). */
  predicate PositiveLengths(bars: seq<Bar>)
  {
    forall i :: 0 <= i < |bars| ==> bars[i].length > 0.0
  }

  /** One fixed-end force vector per bar, each of length 6 when present. */
  predicate LoadState(bars: seq<Bar>, qf: seq<Option<Vector>>)
  {
    |qf| == |bars| && forall i :: 0 <= i < |qf| ==> qf[i].Some? ==> |qf[i].value| == 6
  }

  /** The fixed-end forces of one load on a frame bar; the intensities are
      negated because the routine takes the local -Y direction as positive. */
  function LoadVector(bar: Bar, load: BarLoad): (q: Vector)
    requires bar.length > 0.0
    ensures |q| == 6
  {
    FixedEndForces(bar.length, load.a, -load.wa, load.b, -load.wb)
  }

  /** Adds a new vector to a bar's existing fixed-end forces, or installs it. */
  function Accumulate(prev: Option<Vector>, q: Vector): (r: Vector)
    requires |q| == 6 && (prev.Some? ==> |prev.value| == 6)
    ensures |r| == 6
  {
    match prev
    case None => q
    case Some(p) => Add(q, p)
  }

  /** Applies one bar load: an unknown bar is an error, a frame bar gains the
      load's fixed-end forces, a bar of another type is left as it was. */
  function ApplyLoad(bars: seq<Bar>, qf: seq<Option<Vector>>, load: BarLoad): (r: Result<seq<Option<Vector>>, Error>)
    requires PositiveLengths(bars) && LoadState(bars, qf)
    ensures r.Failure? <==> FindBar(bars, load.bar).None?
    ensures r.Failure? ==> r.error == UnknownBar(load.bar)
    ensures r.Success? ==> LoadState(bars, r.value)
    ensures r.Success? ==>
      forall i :: 0 <= i < |bars| && (bars[i].kind != Frame || FindBar(bars, load.bar) != Some(i)) ==> r.value[i] == qf[i]
  {
    match FindBar(bars, load.bar)
    case None => Failure(UnknownBar(load.bar))
    case Some(i) =>
      if bars[i].kind == Frame then Success(qf[i := Some(Accumulate(qf[i], LoadVector(bars[i], load)))])
      else Success(qf)
  }

  /** The loads in order; the first load naming an unknown bar stops the pass. */
  function ApplyBarLoads(bars: seq<Bar>, qf: seq<Option<Vector>>, loads: seq<BarLoad>): (r: Result<seq<Option<Vector>>, Error>)
    requires PositiveLengths(bars) && LoadState(bars, qf)
    ensures r.Success? ==> LoadState(bars, r.value)
    decreases |loads|
  {
    if |loads| == 0 then Success(qf)
    else
      match ApplyLoad(bars, qf, loads[0])
      case Failure(e) => Failure(e)
      case Success(next) => ApplyBarLoads(bars, next, loads[1..])
  }

  /** The loads that land on bar i: those whose bar id is found at i, when i is a frame. */
  predicate Lands(bars: seq<Bar>, load: BarLoad, i: nat)
  {
    FindBar(bars, load.bar) == Some(i) && i < |bars| && bars[i].kind == Frame
  }

  /** Reference: the sum of the fixed-end forces of every load that lands on bar i. */
  function LandedSum(bars: seq<Bar>, loads: seq<BarLoad>, i: nat): (s: Vector)
    requires PositiveLengths(bars) && i < |bars|
    ensures |s| == 6
    decreases |loads|
  {
    if |loads| == 0 then Zeros(6)
    else Add(if Lands(bars, loads[0], i) then LoadVector(bars[i], loads[0]) else Zeros(6),
             LandedSum(bars, loads[1..], i))
  }

  /** Some load lands on bar i. */
  predicate Landed(bars: seq<Bar>, loads: seq<BarLoad>, i: nat)
  {
    exists j :: 0 <= j < |loads| && Lands(bars, loads[j], i)
  }

  /** The existing vector, or zeros when there is none. */
  function Base(prev: Option<Vector>): Vector
  {
    match prev
    case None => Zeros(6)
    case Some(p) => p
  }

  /** Bar i has a landed load in the list exactly when the head lands there
      or some load of the tail does. */
  lemma LandedCons(bars: seq<Bar>, loads: seq<BarLoad>, i: nat)
    requires |loads| > 0
    ensures Landed(bars, loads, i) <==> Lands(bars, loads[0], i) || Landed(bars, loads[1..], i)
  {
    if Landed(bars, loads[1..], i) {
      var j :| 0 <= j < |loads[1..]| && Lands(bars, loads[1..][j], i);
      assert Lands(bars, loads[j + 1], i);
    }
  }

  /** The step when the head load lands on bar i: its fixed-end forces join
      the existing vector. */
  lemma {:induction false} LandedStepHit(bars: seq<Bar>, qf: seq<Option<Vector>>, loads: seq<BarLoad>, i: nat)
    requires PositiveLengths(bars) && LoadState(bars, qf) && |loads| > 0 && i < |bars|
    requires ApplyLoad(bars, qf, loads[0]).Success? && Lands(bars, loads[0], i)
    ensures var next := ApplyLoad(bars, qf, loads[0]).value; var rest := loads[1..];
      (if Landed(bars, rest, i) then Some(Add(Base(next[i]), LandedSum(bars, rest, i))) else next[i])
      == Some(Add(Base(qf[i]), LandedSum(bars, loads, i)))
  {
    var next := ApplyLoad(bars, qf, loads[0]).value;
    var rest := loads[1..];
    var head := LoadVector(bars[i], loads[0]);
    assert LandedSum(bars, loads, i) == Add(head, LandedSum(bars, rest, i));
    assert next[i] == Some(Accumulate(qf[i], head));
    assert Base(next[i]) == Add(Base(qf[i]), head) by {
      if qf[i].None? {
        AddZeros(head);
      } else {
        AddCommutative(head, qf[i].value);
      }
    }
    if Landed(bars, rest, i) {
      AddAssociative(Base(qf[i]), head, LandedSum(bars, rest, i));
    } else {
      assert LandedSum(bars, rest, i) == Zeros(6) by { NoneLanded(bars, rest, i); }
      AddZeros(Add(Base(qf[i]), head));
      AddZeros(head);
    }
  }

  /** One load's step of the accumulation, seen from bar i: what the rest of
      the loads make of the updated vectors is what all of them make of the
      original ones. */
  lemma {:induction false} LandedStep(bars: seq<Bar>, qf: seq<Option<Vector>>, loads: seq<BarLoad>, i: nat)
    requires PositiveLengths(bars) && LoadState(bars, qf) && |loads| > 0 && i < |bars|
    requires ApplyLoad(bars, qf, loads[0]).Success?
    ensures var next := ApplyLoad(bars, qf, loads[0]).value; var rest := loads[1..];
      (if Landed(bars, rest, i) then Some(Add(Base(next[i]), LandedSum(bars, rest, i))) else next[i])
      == (if Landed(bars, loads, i) then Some(Add(Base(qf[i]), LandedSum(bars, loads, i))) else qf[i])
  {
    LandedCons(bars, loads, i);
    if Lands(bars, loads[0], i) {
      LandedStepHit(bars, qf, loads, i);
    } else {
      var next := ApplyLoad(bars, qf, loads[0]).value;
      var rest := loads[1..];
      assert next[i] == qf[i];
      assert LandedSum(bars, loads, i) == Add(Zeros(6), LandedSum(bars, rest, i));
      AddZeros(LandedSum(bars, rest, i));
    }
  }

  /** Loads on the same bar add up: after the pass, a frame bar that received
      loads holds its earlier vector (zeros if none) plus the sum of their
      fixed-end forces; every other bar is unchanged. A load naming an unknown
      bar is an error exactly when there is one, and the first one is reported. */
  lemma {:induction false} ApplyBarLoadsSums(bars: seq<Bar>, qf: seq<Option<Vector>>, loads: seq<BarLoad>)
    requires PositiveLengths(bars) && LoadState(bars, qf)
    ensures var r := ApplyBarLoads(bars, qf, loads);
      r.Failure? <==> exists j :: 0 <= j < |loads| && FindBar(bars, loads[j].bar).None?
    ensures var r := ApplyBarLoads(bars, qf, loads);
      r.Failure? ==>
        exists j :: 0 <= j < |loads| && FindBar(bars, loads[j].bar).None? && r.error == UnknownBar(loads[j].bar)
                    && forall l :: 0 <= l < j ==> FindBar(bars, loads[l].bar).Some?
    ensures var r := ApplyBarLoads(bars, qf, loads);
      r.Success? ==> forall i :: 0 <= i < |bars| ==>
        r.value[i] == if Landed(bars, loads, i) then Some(Add(Base(qf[i]), LandedSum(bars, loads, i))) else qf[i]
    decreases |loads|
  {
    if |loads| == 0 {
      return;
    }
    var rest := loads[1..];
    assert forall j :: 0 < j < |loads| ==> loads[j] == rest[j - 1];
    var step := ApplyLoad(bars, qf, loads[0]);
    if step.Failure? {
      return;
    }
    var next := step.value;
    ApplyBarLoadsSums(bars, next, rest);
    var r := ApplyBarLoads(bars, qf, loads);
    assert r == ApplyBarLoads(bars, next, rest);
    if r.Success? {
      forall i | 0 <= i < |bars|
        ensures r.value[i] == if Landed(bars, loads, i) then Some(Add(Base(qf[i]), LandedSum(bars, loads, i))) else qf[i]
      {
        LandedStep(bars, qf, loads, i);
      }
    }
  }

  /** With no load landing on bar i, the reference sum is zero. */
  lemma {:induction false} NoneLanded(bars: seq<Bar>, loads: seq<BarLoad>, i: nat)
    requires PositiveLengths(bars) && i < |bars| && !Landed(bars, loads, i)
    ensures LandedSum(bars, loads, i) == Zeros(6)
    decreases |loads|
  {
    if |loads| > 0 {
      var rest := loads[1..];
      assert forall j :: 0 <= j < |rest| ==> rest[j] == loads[j + 1];
      NoneLanded(bars, rest, i);
      AddZeros(Zeros(6));
    }
  }

  // ---------------------------------------------------------------------------
  // Equilibrium of the accumulated fixed-end forces

  /** What one bar load applies to bar i, as totals about end 1 (intensities
      negated as in LoadVector); nothing when it does not land there. */
  function LoadOn(bars: seq<Bar>, load: BarLoad, i: nat): (r: Balance)
    ensures !Lands(bars, load, i) ==> r == Balanced
  {
    if Lands(bars, load, i) then SpanLoad(bars[i].length, load.a, -load.wa, load.b, -load.wb)
    else Balanced
  }

  /** Reference: the totals of every load that lands on bar i, summed. */
  function LandedLoad(bars: seq<Bar>, loads: seq<BarLoad>, i: nat): (r: Balance)
    ensures r.axial == 0.0
    decreases |loads|
  {
    if |loads| == 0 then Balanced
    else Combine(LoadOn(bars, loads[0], i), LandedLoad(bars, loads[1..], i))
  }

  /** The vector one load adds to bar i has that load's totals. */
  lemma LoadOnBalance(bars: seq<Bar>, load: BarLoad, i: nat)
    requires PositiveLengths(bars) && i < |bars|
    ensures var head := if Lands(bars, load, i) then LoadVector(bars[i], load) else Zeros(6);
      EndBalance(head, bars[i].length) == LoadOn(bars, load, i)
  {
    if Lands(bars, load, i) {
      FixedEndBalance(bars[i].length, load.a, -load.wa, load.b, -load.wb);
    } else {
      EndBalanceZeros(bars[i].length);
    }
  }

  /** The accumulated fixed-end forces of bar i balance the loads landed on it:
      their net transverse force is the loads' total resultant and their net
      moment about end 1 is the loads' total first moment. */
  lemma {:induction false} LandedSumBalance(bars: seq<Bar>, loads: seq<BarLoad>, i: nat)
    requires PositiveLengths(bars) && i < |bars|
    ensures EndBalance(LandedSum(bars, loads, i), bars[i].length) == LandedLoad(bars, loads, i)
    decreases |loads|
  {
    var length := bars[i].length;
    if |loads| == 0 {
      EndBalanceZeros(length);
    } else {
      var head := if Lands(bars, loads[0], i) then LoadVector(bars[i], loads[0]) else Zeros(6);
      var tail := LandedSum(bars, loads[1..], i);
      assert LandedSum(bars, loads, i) == Add(head, tail);
      assert LandedLoad(bars, loads, i) == Combine(LoadOn(bars, loads[0], i), LandedLoad(bars, loads[1..], i));
      EndBalanceAdd(head, tail, length);
      LoadOnBalance(bars, loads[0], i);
      LandedSumBalance(bars, loads[1..], i);
    }
  }
}

=== FILE: common.dfy ===
/** Shared wrappers and the identifier lookup every stage of the engine uses. */
module Common {

  /** An optional value: the derived fixed-end-force vector of a bar, a position found by a scan. */
  datatype Option<+T> = None | Some(value: T)

  /** The outcome of an operation that aborts the run on bad input. */
  datatype Result<+T, +E> = Success(value: T) | Failure(error: E)

  /** Fatal input errors: a reference to a node or a bar identifier that does not exist. */
  datatype Error = UnknownNode(node: int) | UnknownBar(bar: int)

  /** Position of the first occurrence of `x` in `xs`, the way a list's `index` method finds it;
      `None` exactly where `index` raises because `x` is absent. */
  function IndexOf(xs: seq<int>, x: int): (r: Option<nat>)
    ensures r.Some? ==> r.value < |xs| && xs[r.value] == x
    ensures r.Some? ==> forall j :: 0 <= j < r.value ==> xs[j] != x
    ensures r.None? <==> x !in xs
  {
    if |xs| == 0 then None
    else if xs[0] == x then Some(0)
    else match IndexOf(xs[1..], x)
      case None => None
      case Some(i) => Some(i + 1)
  }
}

=== FILE: elements.dfy ===
/** Element formulation: local stiffness matrices and local-to-global
    transformation matrices of the two element types. */
module Elements {
  import opened Common
  import opened LinAlg
  import opened Model
  import opened Statics

  /** Each step of the chain 2EI/L -> 4EI/L -> 6EI/L² the program uses, stated
      without division: six · L² = 6EI. */
  lemma SixCoefficient(ei: real, length: real, two: real, six: real)
    requires length > 0.0 && two == 2.0 * ei / length && six == 3.0 * two / length
    ensures six * (length * length) == 6.0 * ei
  {
    assert two * length == 2.0 * ei;
    assert six * length == 3.0 * two;
    assert six * (length * length) == (six * length) * length;
  }

  /** The last step 6EI/L² -> 12EI/L³: twelve · L³ = 12EI. */
  lemma TwelveCoefficient(ei: real, length: real, six: real, twelve: real)
    requires length > 0.0 && six * (length * length) == 6.0 * ei && twelve == 2.0 * six / length
    ensures twelve * (length * length * length) == 12.0 * ei
  {
    assert twelve * length == 2.0 * six;
    assert twelve * (length * length * length) == (twelve * length) * (length * length);
  }

  /** The axial stiffness EA/L of a member. */
  function AxialStiffness(area: real, modulus: real, length: real): real
    requires length > 0.0
  {
    modulus * area / length
  }

  // ---------------------------------------------------------------------------
  // Truss: local order [u1, v1, u2, v2]

  /** Axial-only stiffness EA/L coupling the two axial translations. */
  function TrussStiffness(area: real, modulus: real, length: real): (k: Matrix)
    requires length > 0.0
    ensures IsMatrix(k, 4, 4) && IsSymmetric(k)
    ensures k[0][0] == AxialStiffness(area, modulus, length) && k[2][2] == k[0][0]
    ensures k[0][2] == -k[0][0] && k[2][0] == -k[0][0]
    ensures forall i, j :: 0 <= i < 4 && 0 <= j < 4 && !((i == 0 || i == 2) && (j == 0 || j == 2)) ==> k[i][j] == 0.0
  {
    var ea := AxialStiffness(area, modulus, length);
    [[ ea, 0.0, -ea, 0.0],
     [0.0, 0.0, 0.0, 0.0],
     [-ea, 0.0,  ea, 0.0],
     [0.0, 0.0, 0.0, 0.0]]
  }

  /** Two stacked 2 x 2 rotation blocks by the direction cosines. */
  function TrussTransformation(c: real, s: real): (t: Matrix)
    ensures IsMatrix(t, 4, 4)
  {
    [[  c,   s, 0.0, 0.0],
     [ -s,   c, 0.0, 0.0],
     [0.0, 0.0,   c,   s],
     [0.0, 0.0,  -s,   c]]
  }

  /** The truss carries only the axial force EA/L times the shortening u1 - u2:
      transverse components carry nothing and a rigid axial shift is free of force. */
  lemma TrussAxialLaw(area: real, modulus: real, length: real, d: Vector)
    requires length > 0.0 && |d| == 4
    ensures var w := MatVec(TrussStiffness(area, modulus, length), d);
      |w| == 4 && w[0] == AxialStiffness(area, modulus, length) * (d[0] - d[2])
      && w[2] == -w[0] && w[1] == 0.0 && w[3] == 0.0
  {
    var k := TrussStiffness(area, modulus, length);
    forall i | 0 <= i < 4
    {
      Dot4(k[i], d);
    }
  }

  /** The columns of the truss transformation. */
  function TrussColumns(c: real, s: real): (cols: seq<Vector>)
    ensures |cols| == 4 && forall i :: 0 <= i < 4 ==> |cols[i]| == 4
  {
    [[c, -s, 0.0, 0.0], [s, c, 0.0, 0.0], [0.0, 0.0, c, -s], [0.0, 0.0, s, c]]
  }

  /** With C² + S² = 1 the columns are orthonormal. */
  lemma TrussColumnsOrthonormal(c: real, s: real, i: nat, j: nat)
    requires c * c + s * s == 1.0 && i < 4 && j < 4
    ensures Dot(TrussColumns(c, s)[i], TrussColumns(c, s)[j]) == if i == j then 1.0 else 0.0
  {
    Dot4(TrussColumns(c, s)[i], TrussColumns(c, s)[j]);
  }

  /** With C² + S² = 1 the truss transformation is orthogonal: Tᵀ·T = I. */
  lemma TrussTransformationOrthogonal(c: real, s: real)
    requires c * c + s * s == 1.0
    ensures MatMul(Transpose(TrussTransformation(c, s), 4), TrussTransformation(c, s), 4) == Identity(4)
  {
    var t := TrussTransformation(c, s);
    var cols := TrussColumns(c, s);
    assert forall i :: 0 <= i < 4 ==> Column(t, i) == cols[i];
    var p := MatMul(Transpose(t, 4), t, 4);
    forall i, j | 0 <= i < 4 && 0 <= j < 4
      ensures p[i][j] == Identity(4)[i][j]
    {
      assert p[i][j] == Dot(cols[i], cols[j]);
      TrussColumnsOrthonormal(c, s, i, j);
    }
    MatrixExt(p, Identity(4), 4, 4);
  }

  // ---------------------------------------------------------------------------
  // Frame: local order [u1, v1, θ1, u2, v2, θ2]

  /** The bending coefficients as the program derives them from 2EI/L. */
  datatype BendingCoefficients = BendingCoefficients(two: real, four: real, six: real, twelve: real)

  /** How each coefficient follows from the one before: 4EI/L = 2·(2EI/L),
      6EI/L² = (2EI/L + 4EI/L)/L and 12EI/L³ = 2·(6EI/L²)/L. */
  predicate Chained(b: BendingCoefficients, length: real)
  {
    b.four == 2.0 * b.two && b.six * length == b.two + b.four && b.twelve * length == 2.0 * b.six
  }

  /** The coefficients 2EI/L, 4EI/L, 6EI/L² and 12EI/L³, computed in that order. */
  function Bending(modulus: real, inertia: real, length: real): (b: BendingCoefficients)
    requires length > 0.0
    ensures b.two == 2.0 * modulus * inertia / length
    ensures b.four == 4.0 * modulus * inertia / length
    ensures b.six * (length * length) == 6.0 * modulus * inertia
    ensures b.twelve * (length * length * length) == 12.0 * modulus * inertia
    ensures Chained(b, length)
  {
    var two := 2.0 * modulus * inertia / length;
    var four := 2.0 * two;
    var six := (two + four) / length;
    var twelve := 2.0 * six / length;
    SixCoefficient(modulus * inertia, length, two, six);
    TwelveCoefficient(modulus * inertia, length, six, twelve);
    BendingCoefficients(two, four, six, twelve)
  }

  /** The frame stiffness layout for axial stiffness `ea` and bending coefficients `b`. */
  function FrameMatrix(ea: real, b: BendingCoefficients): (k: Matrix)
    ensures IsMatrix(k, 6, 6)
  {
    [[ ea,        0.0,     0.0, -ea,        0.0,     0.0],
     [0.0,   b.twelve,   b.six, 0.0, -b.twelve,   b.six],
     [0.0,      b.six,  b.four, 0.0,    -b.six,   b.two],
     [-ea,        0.0,     0.0,  ea,        0.0,     0.0],
     [0.0,  -b.twelve,  -b.six, 0.0,  b.twelve,  -b.six],
     [0.0,      b.six,   b.two, 0.0,    -b.six,  b.four]]
  }

  /** Axial block EA/L on (u1, u2) and the fixed-fixed beam block on (v1, θ1, v2, θ2). */
  function FrameStiffness(area: real, modulus: real, inertia: real, length: real): (k: Matrix)
    requires length > 0.0
    ensures IsMatrix(k, 6, 6) && IsSymmetric(k)
    ensures k[0][0] == AxialStiffness(area, modulus, length) && k[3][3] == k[0][0]
    ensures k[0][3] == -k[0][0]
    ensures k[2][5] == 2.0 * modulus * inertia / length
    ensures k[2][2] == 2.0 * k[2][5] && k[1][2] * length == 3.0 * k[2][5] && k[1][1] * length == 2.0 * k[1][2]
    ensures k[1][1] * (length * length * length) == 12.0 * modulus * inertia
    ensures k[1][2] * (length * length) == 6.0 * modulus * inertia
    ensures k[2][2] == 4.0 * modulus * inertia / length
    ensures k[1][4] == -k[1][1] && k[4][4] == k[1][1]
    ensures k[1][5] == k[1][2] && k[2][4] == -k[1][2] && k[4][5] == -k[1][2]
    ensures k[5][5] == k[2][2]
    ensures forall j :: 0 <= j < 6 && j != 0 && j != 3 ==> k[0][j] == 0.0 && k[3][j] == 0.0
  {
    FrameMatrix(AxialStiffness(area, modulus, length), Bending(modulus, inertia, length))
  }

  /** Rotation blocks for each end's (u, v) pair; the rotation components
      pass through unchanged. */
  function FrameTransformation(c: real, s: real): (t: Matrix)
    ensures IsMatrix(t, 6, 6)
  {
    [[  c,   s, 0.0, 0.0, 0.0, 0.0],
     [ -s,   c, 0.0, 0.0, 0.0, 0.0],
     [0.0, 0.0, 1.0, 0.0, 0.0, 0.0],
     [0.0, 0.0, 0.0,   c,   s, 0.0],
     [0.0, 0.0, 0.0,  -s,   c, 0.0],
     [0.0, 0.0, 0.0, 0.0, 0.0, 1.0]]
  }

  /** An axial shift of the whole member produces no end forces. */
  lemma FrameAxialMode(ea: real, b: BendingCoefficients)
    ensures IsZero(MatVec(FrameMatrix(ea, b), [1.0, 0.0, 0.0, 1.0, 0.0, 0.0]))
  {
    var k := FrameMatrix(ea, b);
    forall i | 0 <= i < 6
      ensures Dot(k[i], [1.0, 0.0, 0.0, 1.0, 0.0, 0.0]) == 0.0
    {
      Dot6(k[i], [1.0, 0.0, 0.0, 1.0, 0.0, 0.0]);
    }
  }

  /** A transverse shift of the whole member produces no end forces. */
  lemma FrameShiftMode(ea: real, b: BendingCoefficients)
    ensures IsZero(MatVec(FrameMatrix(ea, b), [0.0, 1.0, 0.0, 0.0, 1.0, 0.0]))
  {
    var k := FrameMatrix(ea, b);
    forall i | 0 <= i < 6
      ensures Dot(k[i], [0.0, 1.0, 0.0, 0.0, 1.0, 0.0]) == 0.0
    {
      Dot6(k[i], [0.0, 1.0, 0.0, 0.0, 1.0, 0.0]);
    }
  }

  /** A rigid rotation about end 1 (unit rotation at both ends, end 2 moved
      transversely by L) produces no end forces when the coefficients are chained. */
  lemma FrameTurnMode(ea: real, b: BendingCoefficients, length: real)
    requires Chained(b, length)
    ensures IsZero(MatVec(FrameMatrix(ea, b), [0.0, 0.0, 1.0, 0.0, length, 1.0]))
  {
    var k := FrameMatrix(ea, b);
    var turn: Vector := [0.0, 0.0, 1.0, 0.0, length, 1.0];
    var tl, sl := b.twelve * length, b.six * length;
    assert k[1][4] * length == -tl && k[4][4] * length == tl;
    assert k[2][4] * length == -sl && k[5][4] * length == -sl;
    forall i | 0 <= i < 6
      ensures Dot(k[i], turn) == 0.0
    {
      Dot6(k[i], turn);
    }
  }

  /** The three rigid-body motions of a member (axial shift, transverse shift,
      rotation about end 1) produce no end forces. */
  lemma FrameRigidBodyModes(area: real, modulus: real, inertia: real, length: real)
    requires length > 0.0
    ensures IsZero(MatVec(FrameStiffness(area, modulus, inertia, length), [1.0, 0.0, 0.0, 1.0, 0.0, 0.0]))
    ensures IsZero(MatVec(FrameStiffness(area, modulus, inertia, length), [0.0, 1.0, 0.0, 0.0, 1.0, 0.0]))
    ensures IsZero(MatVec(FrameStiffness(area, modulus, inertia, length), [0.0, 0.0, 1.0, 0.0, length, 1.0]))
  {
    var ea := AxialStiffness(area, modulus, length);
    var b := Bending(modulus, inertia, length);
    FrameAxialMode(ea, b);
    FrameShiftMode(ea, b);
    FrameTurnMode(ea, b, length);
  }

  /** The end moments plus the moment of V2 about end 1 cancel for chained
      coefficients, whatever the transverse displacements and rotations. */
  lemma BendingMomentsCancel(b: BendingCoefficients, length: real, v1: real, r1: real, v2: real, r2: real)
    requires Chained(b, length)
    ensures (b.six * v1 + b.four * r1 - b.six * v2 + b.two * r2)
          + (b.six * v1 + b.two * r1 - b.six * v2 + b.four * r2)
          + (-b.twelve * v1 - b.six * r1 + b.twelve * v2 - b.six * r2) * length == 0.0
  {
    var tl, sl := b.twelve * length, b.six * length;
    assert (-b.twelve * v1 - b.six * r1 + b.twelve * v2 - b.six * r2) * length
        == -tl * v1 - sl * r1 + tl * v2 - sl * r2;
  }

  /** The six entries of k x for the frame layout. */
  lemma FrameMatVec(ea: real, b: BendingCoefficients, x: Vector)
    requires |x| == 6
    ensures var q := MatVec(FrameMatrix(ea, b), x);
      && q[0] == ea * x[0] - ea * x[3]
      && q[1] == b.twelve * x[1] + b.six * x[2] - b.twelve * x[4] + b.six * x[5]
      && q[2] == b.six * x[1] + b.four * x[2] - b.six * x[4] + b.two * x[5]
      && q[3] == -ea * x[0] + ea * x[3]
      && q[4] == -b.twelve * x[1] - b.six * x[2] + b.twelve * x[4] - b.six * x[5]
      && q[5] == b.six * x[1] + b.two * x[2] - b.six * x[4] + b.four * x[5]
  {
    var k := FrameMatrix(ea, b);
    Dot6(k[0], x);
    Dot6(k[1], x);
    Dot6(k[2], x);
    Dot6(k[3], x);
    Dot6(k[4], x);
    Dot6(k[5], x);
  }

  /** End forces produced by any end displacements are self-balanced: no net
      axial force, no net transverse force, no net moment about end 1, when
      the bending coefficients are chained. */
  lemma FrameMatrixBalanced(ea: real, b: BendingCoefficients, length: real, x: Vector)
    requires Chained(b, length) && |x| == 6
    ensures EndBalance(MatVec(FrameMatrix(ea, b), x), length) == Balanced
  {
    FrameMatVec(ea, b, x);
    BendingMomentsCancel(b, length, x[1], x[2], x[4], x[5]);
  }

  /** The elastic end forces k x of a frame member balance for every x. */
  lemma FrameElasticEquilibrium(area: real, modulus: real, inertia: real, length: real, x: Vector)
    requires length > 0.0 && |x| == 6
    ensures EndBalance(MatVec(FrameStiffness(area, modulus, inertia, length), x), length) == Balanced
  {
    FrameMatrixBalanced(AxialStiffness(area, modulus, length), Bending(modulus, inertia, length), length, x);
  }

  /** The columns of the frame transformation. */
  function FrameColumns(c: real, s: real): (cols: seq<Vector>)
    ensures |cols| == 6 && forall i :: 0 <= i < 6 ==> |cols[i]| == 6
  {
    [[c, -s, 0.0, 0.0, 0.0, 0.0], [s, c, 0.0, 0.0, 0.0, 0.0], [0.0, 0.0, 1.0, 0.0, 0.0, 0.0],
     [0.0, 0.0, 0.0, c, -s, 0.0], [0.0, 0.0, 0.0, s, c, 0.0], [0.0, 0.0, 0.0, 0.0, 0.0, 1.0]]
  }

  /** With C² + S² = 1 the columns are orthonormal. */
  lemma FrameColumnsOrthonormal(c: real, s: real, i: nat, j: nat)
    requires c * c + s * s == 1.0 && i < 6 && j < 6
    ensures Dot(FrameColumns(c, s)[i], FrameColumns(c, s)[j]) == if i == j then 1.0 else 0.0
  {
    Dot6(FrameColumns(c, s)[i], FrameColumns(c, s)[j]);
  }

  /** With C² + S² = 1 the frame transformation is orthogonal: Tᵀ·T = I. */
  lemma FrameTransformationOrthogonal(c: real, s: real)
    requires c * c + s * s == 1.0
    ensures MatMul(Transpose(FrameTransformation(c, s), 6), FrameTransformation(c, s), 6) == Identity(6)
  {
    var t := FrameTransformation(c, s);
    var cols := FrameColumns(c, s);
    assert forall i :: 0 <= i < 6 ==> Column(t, i) == cols[i];
    var p := MatMul(Transpose(t, 6), t, 6);
    forall i, j | 0 <= i < 6 && 0 <= j < 6
      ensures p[i][j] == Identity(6)[i][j]
    {
      assert p[i][j] == Dot(cols[i], cols[j]);
      FrameColumnsOrthonormal(c, s, i, j);
    }
    MatrixExt(p, Identity(6), 6, 6);
  }

  /** The frame transformation rotates each end's (u, v) pair and leaves the
      rotations unchanged, whatever the direction cosines. */
  lemma FrameRotationsUnchanged(c: real, s: real, d: Vector)
    requires |d| == 6
    ensures MatVec(FrameTransformation(c, s), d)
      == [c * d[0] + s * d[1], c * d[1] - s * d[0], d[2], c * d[3] + s * d[4], c * d[4] - s * d[3], d[5]]
  {
    var t := FrameTransformation(c, s);
    var expected := [c * d[0] + s * d[1], c * d[1] - s * d[0], d[2], c * d[3] + s * d[4], c * d[4] - s * d[3], d[5]];
    forall i | 0 <= i < 6
      ensures MatVec(t, d)[i] == expected[i]
    {
      Dot6(t[i], d);
    }
    assert MatVec(t, d) == expected;
  }

  // ---------------------------------------------------------------------------
  // Per-bar matrices

  datatype ElementMatrices = ElementMatrices(k: Matrix, t: Matrix)

  /** Number of components per bar end: 2 for a truss, 3 for any other type. */
  function DofsPerEnd(kind: ElementType): nat
  {
    if kind == Truss then 2 else 3
  }

  /** The (k, T) pair of a bar; a bar of unrecognised type gets none. */
  function Matrices(bar: Bar): (r: Option<ElementMatrices>)
    requires bar.length > 0.0
    ensures r.Some? <==> bar.kind == Truss || bar.kind == Frame
    ensures r.Some? ==> var m := 2 * DofsPerEnd(bar.kind);
      IsMatrix(r.value.k, m, m) && IsMatrix(r.value.t, m, m) && IsSymmetric(r.value.k)
  {
    match bar.kind
    case Truss => Some(ElementMatrices(TrussStiffness(bar.area, bar.modulus, bar.length),
                                       TrussTransformation(bar.cos, bar.sin)))
    case Frame => Some(ElementMatrices(FrameStiffness(bar.area, bar.modulus, bar.inertia, bar.length),
                                       FrameTransformation(bar.cos, bar.sin)))
    case Unrecognised(_) => None
  }
}

=== FILE: fixed_end.dfy ===
/** Fixed-end forces of a FRAME member under a trapezoidal transverse load:
    the span guard, the five-point Boole quadrature of the two fixed-end
    moment integrals, and the end shears from statics.  Loads are positive in
    the local -Y direction; the result is ordered [N1, V1, M1, N2, V2, M2]. */
module FixedEnd {
  import opened Common
  import opened LinAlg
  import opened Tolerance
  import opened Statics

  // ---------------------------------------------------------------------------
  // Span guard

  datatype Rejection = Reversed | BeyondEnd

  /** The load span after the guard: accepted as [lo, hi], or rejected. */
  datatype SpanCheck = Span(lo: real, hi: real) | Rejected(reason: Rejection)

  /** The (0, 0) span stands for the whole member. */
  predicate WholeMember(a: real, b: real)
  {
    Eq(a, 0.0) && Eq(b, 0.0)
  }

  /** The guard as the program writes it: `Ge(a, b)` only rejects a start at
      least one tolerance past the end, so a zero-length or slightly reversed
      span is accepted. */
  function SpanAsWritten(length: real, a: real, b: real): (s: SpanCheck)
    ensures s.Span? ==> s.lo == a && s.hi <= length + Tol
    ensures WholeMember(a, b) ==> s == Span(a, length)
    ensures s.Span? && !WholeMember(a, b) ==> s.hi == b && s.hi > s.lo - Tol
    ensures s.Rejected? <==> !WholeMember(a, b) && (a - b >= Tol || b - length > Tol)
  {
    if WholeMember(a, b) then Span(a, length)
    else if Ge(a, b) then Rejected(Reversed)
    else if Gt(b, length) then Rejected(BeyondEnd)
    else Span(a, b)
  }

  /** The guard with the tolerance applied in the direction that keeps the span
      open: the (0, 0) shorthand is resolved first, then the span is rejected
      unless its end lies more than one tolerance past its start, and rejected
      if the end lies more than one tolerance beyond the member. */
  function CheckSpan(length: real, a: real, b: real): (s: SpanCheck)
    ensures s.Span? ==> s.lo == a && s.hi - s.lo > Tol && s.hi <= length + Tol
    ensures s.Span? ==> s.hi == (if WholeMember(a, b) then length else b)
    ensures s.Rejected? ==> var end := if WholeMember(a, b) then length else b;
      end - a <= Tol || end > length + Tol
  {
    var end := if WholeMember(a, b) then length else b;
    if !Gt(end, a) then Rejected(Reversed)
    else if Gt(end, length) then Rejected(BeyondEnd)
    else Span(a, end)
  }

  /** The corrected guard accepts exactly the spans the program accepts that
      are longer than the tolerance, and then agrees with it. */
  lemma CheckSpanRefinesAsWritten(length: real, a: real, b: real)
    ensures CheckSpan(length, a, b).Span? <==>
      SpanAsWritten(length, a, b).Span? && SpanAsWritten(length, a, b).hi - SpanAsWritten(length, a, b).lo > Tol
    ensures CheckSpan(length, a, b).Span? ==> CheckSpan(length, a, b) == SpanAsWritten(length, a, b)
  {
  }

  // ---------------------------------------------------------------------------
  // Quadrature

  /** Which end moment an integral computes. */
  datatype End = Near | Far

  /** Boole's-rule weights; the rule's factor 2h/45 appears as (b - a) / 90. */
  const BooleWeights: seq<real> := [7.0, 32.0, 12.0, 32.0, 7.0]

  /** The i-th of the five equally spaced sample points of [lo, lo + h]. */
  function SamplePoint(lo: real, h: real, i: nat): real
  {
    lo + (i as real) * h / 4.0
  }

  /** Load intensity at x for a linear variation of slope m starting at wa. */
  function Intensity(lo: real, wa: real, slope: real, x: real): real
  {
    slope * (x - lo) + wa
  }

  /** The fixed-end moment influence functions (times L²) of a unit point
      load at x: x (L - x)² at the near end and x² (L - x) at the far end. */
  function Influence(e: End, length: real, x: real): real
  {
    match e
    case Near => x * ((length - x) * (length - x))
    case Far => (x * x) * (length - x)
  }

  /** The integrand of one end moment at the i-th sample point. */
  function Sample(e: End, length: real, lo: real, h: real, wa: real, slope: real, i: nat): real
  {
    var x := SamplePoint(lo, h, i);
    Influence(e, length, x) * Intensity(lo, wa, slope, x)
  }

  /** The weighted sum over the first n sample points, accumulated in point order. */
  function BooleSum(e: End, length: real, lo: real, h: real, wa: real, slope: real, n: nat): real
    requires n <= 5
  {
    if n == 0 then 0.0
    else BooleSum(e, length, lo, h, wa, slope, n - 1) + BooleWeights[n - 1] * Sample(e, length, lo, h, wa, slope, n - 1)
  }

  /** The accumulated sum is Boole's five-term rule. */
  lemma BooleSumTerms(e: End, length: real, lo: real, h: real, wa: real, slope: real)
    ensures BooleSum(e, length, lo, h, wa, slope, 5)
      == 7.0 * Sample(e, length, lo, h, wa, slope, 0) + 32.0 * Sample(e, length, lo, h, wa, slope, 1)
       + 12.0 * Sample(e, length, lo, h, wa, slope, 2) + 32.0 * Sample(e, length, lo, h, wa, slope, 3)
       + 7.0 * Sample(e, length, lo, h, wa, slope, 4)
  {
    assert BooleSum(e, length, lo, h, wa, slope, 1) == 7.0 * Sample(e, length, lo, h, wa, slope, 0);
    assert BooleSum(e, length, lo, h, wa, slope, 2) == BooleSum(e, length, lo, h, wa, slope, 1) + 32.0 * Sample(e, length, lo, h, wa, slope, 1);
    assert BooleSum(e, length, lo, h, wa, slope, 3) == BooleSum(e, length, lo, h, wa, slope, 2) + 12.0 * Sample(e, length, lo, h, wa, slope, 2);
    assert BooleSum(e, length, lo, h, wa, slope, 4) == BooleSum(e, length, lo, h, wa, slope, 3) + 32.0 * Sample(e, length, lo, h, wa, slope, 3);
  }

  // ---------------------------------------------------------------------------
  // End forces

  /** Resultant of the trapezoidal load of intensities wa, wb over a span of length h. */
  function Resultant(wa: real, wb: real, h: real): real
  {
    (wa + wb) * h / 2.0
  }

  /** First moment about end 1 of the trapezoidal load over [lo, hi]: the
      integral of x w(x) for w linear from wa at lo to wb at hi. */
  function FirstMoment(lo: real, wa: real, hi: real, wb: real): real
  {
    var h := hi - lo;
    lo * h * (wa + wb) / 2.0 + h * h * (wa + 2.0 * wb) / 6.0
  }

  /** The resultant as the program splits it, a rectangle plus a triangle,
      has the trapezoid's force and first moment. */
  lemma RectangleAndTriangle(lo: real, wa: real, hi: real, wb: real)
    ensures var h := hi - lo;
      wa * h + (wb - wa) * h / 2.0 == Resultant(wa, wb, h)
    ensures var h := hi - lo;
      (wa * h) * (lo + h / 2.0) + ((wb - wa) * h / 2.0) * (lo + 2.0 * h / 3.0) == FirstMoment(lo, wa, hi, wb)
  {
    var h := hi - lo;
    assert (wa * h) * (lo + h / 2.0) == wa * h * lo + wa * h * h / 2.0;
    assert ((wb - wa) * h / 2.0) * (lo + 2.0 * h / 3.0) == (wb - wa) * h * lo / 2.0 + (wb - wa) * h * h / 3.0;
  }

  /** The slope of the load intensity along an accepted span. */
  function Slope(lo: real, wa: real, hi: real, wb: real): real
    requires hi != lo
  {
    (wb - wa) / (hi - lo)
  }

  /** One fixed-end moment by quadrature, counter-clockwise positive: the
      program's division by L² is written as two divisions by L, equal over
      the reals. */
  function EndMoment(e: End, length: real, lo: real, wa: real, hi: real, wb: real): (m: real)
    requires length != 0.0 && hi != lo
    ensures var sum := BooleSum(e, length, lo, hi - lo, wa, Slope(lo, wa, hi, wb), 5);
      m * length * length == (if e == Near then (hi - lo) * sum else -(hi - lo) * sum) / 90.0
  {
    var sum := BooleSum(e, length, lo, hi - lo, wa, Slope(lo, wa, hi, wb), 5);
    match e
    case Near => (hi - lo) * sum / 90.0 / length / length
    case Far => -(hi - lo) * sum / 90.0 / length / length
  }

  /** [0, VA, MA, 0, VB, MB] for an accepted span [lo, hi]: the two moments by
      quadrature, then VB from moments about end 1 and VA from the force
      balance. */
  function EndForces(length: real, lo: real, wa: real, hi: real, wb: real): (q: Vector)
    requires length != 0.0 && hi != lo
    ensures |q| == 6 && q[0] == 0.0 && q[3] == 0.0
    ensures q[2] == EndMoment(Near, length, lo, wa, hi, wb) && q[5] == EndMoment(Far, length, lo, wa, hi, wb)
    ensures q[1] + q[4] == Resultant(wa, wb, hi - lo)
    ensures q[4] * length + q[2] + q[5] == FirstMoment(lo, wa, hi, wb)
  {
    var h := hi - lo;
    var ma := EndMoment(Near, length, lo, wa, hi, wb);
    var mb := EndMoment(Far, length, lo, wa, hi, wb);
    var r1 := wa * h;
    var d1 := lo + h / 2.0;
    var r2 := (wb - wa) * h / 2.0;
    var d2 := lo + 2.0 * h / 3.0;
    var vb := (r1 * d1 + r2 * d2 - ma - mb) / length;
    var va := r1 + r2 - vb;
    RectangleAndTriangle(lo, wa, hi, wb);
    [0.0, va, ma, 0.0, vb, mb]
  }

  // ---------------------------------------------------------------------------
  // The operation, as written and corrected

  datatype Fault = DivisionByZero

  /** FixedEndMoment_FRAME as written: a rejected span yields zeros; an accepted span
      divides by its length b - a and by L², which fails when either is zero. */
  function FixedEndMomentAsWritten(length: real, a: real, wa: real, b: real, wb: real): (r: Result<Vector, Fault>)
    ensures r.Failure? <==> (SpanAsWritten(length, a, b).Span?
      && (SpanAsWritten(length, a, b).hi == SpanAsWritten(length, a, b).lo || length == 0.0))
    ensures r.Success? ==> |r.value| == 6 && r.value[0] == 0.0 && r.value[3] == 0.0
    ensures var s := SpanAsWritten(length, a, b); r.Success? && s.Span? ==>
      s.hi != s.lo && r.value == EndForces(length, s.lo, wa, s.hi, wb)
    ensures var s := SpanAsWritten(length, a, b); r.Success? && s.Span? ==>
      r.value[1] + r.value[4] == Resultant(wa, wb, s.hi - s.lo)
      && r.value[4] * length + r.value[2] + r.value[5] == FirstMoment(s.lo, wa, s.hi, wb)
    ensures SpanAsWritten(length, a, b).Rejected? ==> r == Success(Zeros(6))
  {
    match SpanAsWritten(length, a, b)
    case Rejected(_) => Success(Zeros(6))
    case Span(lo, hi) =>
      if hi == lo || length == 0.0 then Failure(DivisionByZero)
      else Success(EndForces(length, lo, wa, hi, wb))
  }

  /** A load of zero length placed anywhere away from end 1 (and not past end
      2) passes every branch of the written guard and divides by zero. */
  lemma GuardAdmitsEmptySpan(length: real, a: real, wa: real, wb: real)
    requires length > 0.0 && !Eq(a, 0.0) && a <= length + Tol
    ensures SpanAsWritten(length, a, a) == Span(a, a)
    ensures FixedEndMomentAsWritten(length, a, wa, a, wb) == Failure(DivisionByZero)
  {
  }

  /** A concrete instance: a 4-unit member with a load from 2 to 2. */
  lemma EmptySpanExample()
    ensures FixedEndMomentAsWritten(4.0, 2.0, 1.0, 2.0, 1.0) == Failure(DivisionByZero)
  {
    GuardAdmitsEmptySpan(4.0, 2.0, 1.0, 1.0);
  }

  /** A span reversed by less than the tolerance is also accepted, and is then
      integrated backwards. */
  lemma GuardAdmitsReversedSpan(length: real, a: real, b: real)
    requires b < a < b + Tol && !Eq(b, 0.0) && b <= length + Tol
    ensures SpanAsWritten(length, a, b) == Span(a, b)
    ensures CheckSpan(length, a, b) == Rejected(Reversed)
  {
  }

  /** The fixed-end force vector of one trapezoidal load, with the corrected
      guard: zeros for a rejected span, the quadrature result otherwise. */
  function FixedEndForces(length: real, a: real, wa: real, b: real, wb: real): (q: Vector)
    requires length > 0.0
    ensures |q| == 6 && q[0] == 0.0 && q[3] == 0.0
    ensures CheckSpan(length, a, b).Rejected? ==> IsZero(q)
    ensures CheckSpan(length, a, b).Span? ==> var s := CheckSpan(length, a, b);
      s.hi != s.lo && q == EndForces(length, s.lo, wa, s.hi, wb)
    ensures CheckSpan(length, a, b).Span? ==> var s := CheckSpan(length, a, b);
      q[1] + q[4] == Resultant(wa, wb, s.hi - s.lo)
      && q[4] * length + q[2] + q[5] == FirstMoment(s.lo, wa, s.hi, wb)
  {
    match CheckSpan(length, a, b)
    case Rejected(_) => Zeros(6)
    case Span(lo, hi) => EndForces(length, lo, wa, hi, wb)
  }

  /** What one trapezoidal load applies to the member, as the totals the end
      forces must balance: no axial part, its resultant, and its first moment
      about end 1; nothing for a span the guard rejects. */
  function SpanLoad(length: real, a: real, wa: real, b: real, wb: real): (r: Balance)
    ensures r.axial == 0.0
  {
    match CheckSpan(length, a, b)
    case Rejected(_) => Balanced
    case Span(lo, hi) => Balance(0.0, Resultant(wa, wb, hi - lo), FirstMoment(lo, wa, hi, wb))
  }

  /** The fixed-end forces hold the member in equilibrium under its load: the
      end forces' totals are exactly the load's resultant and first moment. */
  lemma FixedEndBalance(length: real, a: real, wa: real, b: real, wb: real)
    requires length > 0.0
    ensures EndBalance(FixedEndForces(length, a, wa, b, wb), length) == SpanLoad(length, a, wa, b, wb)
  {
    var q := FixedEndForces(length, a, wa, b, wb);
    if CheckSpan(length, a, b).Rejected? {
      assert q[1] == 0.0 && q[2] == 0.0 && q[4] == 0.0 && q[5] == 0.0;
    }
  }

  /** Wherever the corrected guard accepts, the written routine computes the same forces. */
  lemma FixedEndForcesAgree(length: real, a: real, wa: real, b: real, wb: real)
    requires length > 0.0
    ensures CheckSpan(length, a, b).Span? ==>
      FixedEndMomentAsWritten(length, a, wa, b, wb) == Success(FixedEndForces(length, a, wa, b, wb))
    ensures SpanAsWritten(length, a, b).Rejected? ==>
      FixedEndMomentAsWritten(length, a, wa, b, wb) == Success(FixedEndForces(length, a, wa, b, wb))
  {
    CheckSpanRefinesAsWritten(length, a, b);
  }

  // ---------------------------------------------------------------------------
  // Uniform load over the whole member

  /** The five integrand values of the near-end moment for a uniform load. */
  lemma NearSamples(length: real, w: real)
    ensures Sample(Near, length, 0.0, length - 0.0, w, 0.0, 0) == 0.0
    ensures Sample(Near, length, 0.0, length - 0.0, w, 0.0, 1) == 9.0 / 64.0 * (length * length * length * w)
    ensures Sample(Near, length, 0.0, length - 0.0, w, 0.0, 2) == 8.0 / 64.0 * (length * length * length * w)
    ensures Sample(Near, length, 0.0, length - 0.0, w, 0.0, 3) == 3.0 / 64.0 * (length * length * length * w)
    ensures Sample(Near, length, 0.0, length - 0.0, w, 0.0, 4) == 0.0
  {
  }

  /** The five integrand values of the far-end moment for a uniform load. */
  lemma FarSamples(length: real, w: real)
    ensures Sample(Far, length, 0.0, length - 0.0, w, 0.0, 0) == 0.0
    ensures Sample(Far, length, 0.0, length - 0.0, w, 0.0, 1) == 3.0 / 64.0 * (length * length * length * w)
    ensures Sample(Far, length, 0.0, length - 0.0, w, 0.0, 2) == 8.0 / 64.0 * (length * length * length * w)
    ensures Sample(Far, length, 0.0, length - 0.0, w, 0.0, 3) == 9.0 / 64.0 * (length * length * length * w)
    ensures Sample(Far, length, 0.0, length - 0.0, w, 0.0, 4) == 0.0
  {
  }

  /** Both quadrature sums of a uniform load over the whole member are 7.5 w L³. */
  lemma UniformSums(length: real, w: real, slope: real)
    requires slope == 0.0
    ensures BooleSum(Near, length, 0.0, length - 0.0, w, slope, 5) == 7.5 * (length * length * length * w)
    ensures BooleSum(Far, length, 0.0, length - 0.0, w, slope, 5) == 7.5 * (length * length * length * w)
  {
    BooleSumTerms(Near, length, 0.0, length - 0.0, w, slope);
    BooleSumTerms(Far, length, 0.0, length - 0.0, w, slope);
    NearSamples(length, w);
    FarSamples(length, w);
  }

  /** A moment m with m L² = ±L · 7.5 w L³ / 90 is ±wL²/12. */
  lemma TwelfthOfLoad(m: real, s: real, length: real, w: real, sign: real)
    requires length > 0.0 && (sign == 1.0 || sign == -1.0)
    requires m * length * length == sign * (length - 0.0) * s / 90.0 && s == 7.5 * (length * length * length * w)
    ensures m == sign * (w * length * length / 12.0)
  {
    assert m * length * length == sign * (w * length * length / 12.0) * length * length;
  }

  /** The end moments of a uniform load w over the whole member are ±wL²/12. */
  lemma UniformMoments(length: real, w: real)
    requires length > 0.0
    ensures EndMoment(Near, length, 0.0, w, length, w) == w * length * length / 12.0
    ensures EndMoment(Far, length, 0.0, w, length, w) == -(w * length * length / 12.0)
  {
    var slope := Slope(0.0, w, length, w);
    UniformSums(length, w, slope);
    TwelfthOfLoad(EndMoment(Near, length, 0.0, w, length, w), BooleSum(Near, length, 0.0, length - 0.0, w, slope, 5), length, w, 1.0);
    TwelfthOfLoad(EndMoment(Far, length, 0.0, w, length, w), BooleSum(Far, length, 0.0, length - 0.0, w, slope, 5), length, w, -1.0);
  }

  /** A uniform load w over the whole member gives the closed-form fixed-end
      forces: shears wL/2 at both ends and moments wL²/12, -wL²/12. */
  lemma UniformWholeMember(length: real, w: real)
    requires length > Tol
    ensures FixedEndForces(length, 0.0, w, 0.0, w)
      == [0.0, w * length / 2.0, w * length * length / 12.0, 0.0, w * length / 2.0, -(w * length * length / 12.0)]
  {
    assert CheckSpan(length, 0.0, 0.0) == Span(0.0, length);
    UniformMoments(length, w);
    var q := FixedEndForces(length, 0.0, w, 0.0, w);
    assert q[1] + q[4] == w * length;
    assert q[4] * length == w * length * length / 2.0;
    assert q[4] == w * length / 2.0;
  }
}

=== FILE: linalg.dfy ===
/** Dense vectors and matrices over exact reals, with the summation facts the
    assembly and recovery proofs rest on. */
module LinAlg {

  type Vector = seq<real>
  type Matrix = seq<seq<real>>

  /** `m` has `rows` rows of `cols` entries each. */
  predicate IsMatrix(m: Matrix, rows: nat, cols: nat)
  {
    |m| == rows && forall i :: 0 <= i < rows ==> |m[i]| == cols
  }

  predicate IsSymmetric(m: Matrix)
    requires IsMatrix(m, |m|, |m|)
  {
    forall i, j :: 0 <= i < |m| && 0 <= j < |m| ==> m[i][j] == m[j][i]
  }

  predicate IsZero(v: Vector)
  {
    forall i :: 0 <= i < |v| ==> v[i] == 0.0
  }

  function Zeros(n: nat): (v: Vector)
    ensures |v| == n && IsZero(v)
  {
    seq(n, _ => 0.0)
  }

  function ZeroMatrix(rows: nat, cols: nat): (m: Matrix)
    ensures IsMatrix(m, rows, cols)
    ensures forall i, j :: 0 <= i < rows && 0 <= j < cols ==> m[i][j] == 0.0
  {
    seq(rows, _ => Zeros(cols))
  }

  function Identity(n: nat): (m: Matrix)
    ensures IsMatrix(m, n, n)
    ensures forall i, j :: 0 <= i < n && 0 <= j < n ==> m[i][j] == if i == j then 1.0 else 0.0
  {
    seq(n, i => seq(n, j => if i == j then 1.0 else 0.0))
  }

  function Add(u: Vector, v: Vector): (w: Vector)
    requires |u| == |v|
    ensures |w| == |u| && forall i :: 0 <= i < |u| ==> w[i] == u[i] + v[i]
  {
    seq(|u|, i requires 0 <= i < |u| => u[i] + v[i])
  }

  function Sub(u: Vector, v: Vector): (w: Vector)
    requires |u| == |v|
    ensures |w| == |u| && forall i :: 0 <= i < |u| ==> w[i] == u[i] - v[i]
  {
    seq(|u|, i requires 0 <= i < |u| => u[i] - v[i])
  }

  function Scale(c: real, v: Vector): (w: Vector)
    ensures |w| == |v| && forall i :: 0 <= i < |v| ==> w[i] == c * v[i]
  {
    seq(|v|, i requires 0 <= i < |v| => c * v[i])
  }

  /** Entrywise product; `Dot` sums it. */
  function Mul(u: Vector, v: Vector): (w: Vector)
    requires |u| == |v|
    ensures |w| == |u| && forall i :: 0 <= i < |u| ==> w[i] == u[i] * v[i]
  {
    seq(|u|, i requires 0 <= i < |u| => u[i] * v[i])
  }

  /** Sum of the first `n` entries of `v`. */
  function SumTo(v: Vector, n: nat): real
    requires n <= |v|
  {
    if n == 0 then 0.0 else SumTo(v, n - 1) + v[n - 1]
  }

  function Sum(v: Vector): real
  {
    SumTo(v, |v|)
  }

  function Dot(u: Vector, v: Vector): real
    requires |u| == |v|
  {
    Sum(Mul(u, v))
  }

  function Column(m: Matrix, j: nat): (c: Vector)
    requires forall i :: 0 <= i < |m| ==> j < |m[i]|
    ensures |c| == |m|
    ensures forall i :: 0 <= i < |m| ==> c[i] == m[i][j]
  {
    seq(|m|, i requires 0 <= i < |m| => m[i][j])
  }

  function Transpose(m: Matrix, cols: nat): (t: Matrix)
    requires IsMatrix(m, |m|, cols)
    ensures IsMatrix(t, cols, |m|)
    ensures forall i, j :: 0 <= i < cols && 0 <= j < |m| ==> t[i][j] == m[j][i]
  {
    seq(cols, j requires 0 <= j < cols => Column(m, j))
  }

  /** Row vector `x` times matrix `b`. */
  function RowTimes(x: Vector, b: Matrix, cols: nat): (r: Vector)
    requires IsMatrix(b, |x|, cols)
    ensures |r| == cols
  {
    seq(cols, j requires 0 <= j < cols => Dot(x, Column(b, j)))
  }

  function MatMul(a: Matrix, b: Matrix, cols: nat): (p: Matrix)
    requires IsMatrix(a, |a|, |b|) && IsMatrix(b, |b|, cols)
    ensures IsMatrix(p, |a|, cols)
  {
    seq(|a|, i requires 0 <= i < |a| => RowTimes(a[i], b, cols))
  }

  function MatVec(m: Matrix, v: Vector): (w: Vector)
    requires IsMatrix(m, |m|, |v|)
    ensures |w| == |m| && forall i :: 0 <= i < |m| ==> w[i] == Dot(m[i], v)
  {
    seq(|m|, i requires 0 <= i < |m| => Dot(m[i], v))
  }

  function RowSums(m: Matrix): (r: Vector)
    ensures |r| == |m|
  {
    seq(|m|, i requires 0 <= i < |m| => Sum(m[i]))
  }

  /** Sum of every entry of `m`, row by row. */
  function Total(m: Matrix): real
  {
    Sum(RowSums(m))
  }

  /** Two matrices of one shape that agree entrywise are equal. */
  lemma MatrixExt(l: Matrix, r: Matrix, rows: nat, cols: nat)
    requires IsMatrix(l, rows, cols) && IsMatrix(r, rows, cols)
    requires forall i, j :: 0 <= i < rows && 0 <= j < cols ==> l[i][j] == r[i][j]
    ensures l == r
  {
    forall i | 0 <= i < rows
      ensures l[i] == r[i]
    {
      assert forall j :: 0 <= j < cols ==> l[i][j] == r[i][j];
    }
  }

  // ---------------------------------------------------------------------------
  // Vector addition

  lemma AddAssociative(a: Vector, b: Vector, c: Vector)
    requires |a| == |b| == |c|
    ensures Add(Add(a, b), c) == Add(a, Add(b, c))
  {
    assert forall k :: 0 <= k < |a| ==> Add(Add(a, b), c)[k] == Add(a, Add(b, c))[k];
  }

  lemma AddCommutative(a: Vector, b: Vector)
    requires |a| == |b|
    ensures Add(a, b) == Add(b, a)
  {
    assert forall k :: 0 <= k < |a| ==> Add(a, b)[k] == Add(b, a)[k];
  }

  lemma AddZeros(a: Vector)
    ensures Add(a, Zeros(|a|)) == a && Add(Zeros(|a|), a) == a
  {
    assert forall k :: 0 <= k < |a| ==> Add(a, Zeros(|a|))[k] == a[k];
    assert forall k :: 0 <= k < |a| ==> Add(Zeros(|a|), a)[k] == a[k];
  }

  /** Adding two split vectors adds their parts. */
  lemma AddConcat(a: Vector, b: Vector, c: Vector, d: Vector)
    requires |a| == |c| && |b| == |d|
    ensures Add(a + b, c + d) == Add(a, c) + Add(b, d)
  {
    forall k | 0 <= k < |a| + |b|
      ensures Add(a + b, c + d)[k] == (Add(a, c) + Add(b, d))[k]
    {
      if k < |a| {
        assert (a + b)[k] == a[k] && (c + d)[k] == c[k];
      } else {
        assert (a + b)[k] == b[k - |a|] && (c + d)[k] == d[k - |a|];
      }
    }
  }

  // ---------------------------------------------------------------------------
  // Facts about sums

  lemma {:induction false} SumToPrefix(u: Vector, v: Vector, n: nat)
    requires n <= |u| && n <= |v|
    requires forall k :: 0 <= k < n ==> u[k] == v[k]
    ensures SumTo(u, n) == SumTo(v, n)
  {
    if n > 0 {
      SumToPrefix(u, v, n - 1);
    }
  }

  lemma SumSnoc(s: Vector, x: real)
    ensures Sum(s + [x]) == Sum(s) + x
  {
    SumToPrefix(s + [x], s, |s|);
  }

  lemma {:induction false} SumAppend(s: Vector, t: Vector)
    ensures Sum(s + t) == Sum(s) + Sum(t)
  {
    if |t| == 0 {
      assert s + t == s;
    } else {
      var t' := t[..|t| - 1];
      assert s + t == (s + t') + [t[|t| - 1]];
      assert t == t' + [t[|t| - 1]];
      SumSnoc(s + t', t[|t| - 1]);
      SumSnoc(t', t[|t| - 1]);
      SumAppend(s, t');
    }
  }

  lemma {:induction false} SumToAdd(u: Vector, v: Vector, n: nat)
    requires |u| == |v| && n <= |u|
    ensures SumTo(Add(u, v), n) == SumTo(u, n) + SumTo(v, n)
  {
    if n > 0 {
      SumToAdd(u, v, n - 1);
    }
  }

  lemma SumAdd(u: Vector, v: Vector)
    requires |u| == |v|
    ensures Sum(Add(u, v)) == Sum(u) + Sum(v)
  {
    SumToAdd(u, v, |u|);
  }

  lemma {:induction false} SumToScale(c: real, v: Vector, n: nat)
    requires n <= |v|
    ensures SumTo(Scale(c, v), n) == c * SumTo(v, n)
  {
    if n > 0 {
      SumToScale(c, v, n - 1);
    }
  }

  lemma SumScale(c: real, v: Vector)
    ensures Sum(Scale(c, v)) == c * Sum(v)
  {
    SumToScale(c, v, |v|);
  }

  lemma {:induction false} SumToZero(v: Vector, n: nat)
    requires n <= |v| && IsZero(v)
    ensures SumTo(v, n) == 0.0
  {
    if n > 0 {
      SumToZero(v, n - 1);
    }
  }

  lemma SumZero(v: Vector)
    requires IsZero(v)
    ensures Sum(v) == 0.0
  {
    SumToZero(v, |v|);
  }

  /** A vector that vanishes outside position `k` sums to its entry at `k`. */
  lemma {:induction false} SumToSingle(v: Vector, k: nat, n: nat)
    requires k < |v| && n <= |v|
    requires forall i :: 0 <= i < |v| && i != k ==> v[i] == 0.0
    ensures SumTo(v, n) == if k < n then v[k] else 0.0
  {
    if n > 0 {
      SumToSingle(v, k, n - 1);
    }
  }

  lemma SumSingle(v: Vector, k: nat)
    requires k < |v|
    requires forall i :: 0 <= i < |v| && i != k ==> v[i] == 0.0
    ensures Sum(v) == v[k]
  {
    SumToSingle(v, k, |v|);
  }

  // ---------------------------------------------------------------------------
  // Interchanging the order of a double sum

  /** Summing all entries column by column gives the same total as row by row. */
  lemma {:induction false} TotalTranspose(m: Matrix, cols: nat)
    requires IsMatrix(m, |m|, cols)
    ensures Total(Transpose(m, cols)) == Total(m)
  {
    var t := Transpose(m, cols);
    if |m| == 0 {
      assert IsZero(RowSums(t)) by {
        forall j | 0 <= j < cols
          ensures RowSums(t)[j] == 0.0
        {
          assert t[j] == [];
        }
      }
      SumZero(RowSums(t));
    } else {
      var n := |m| - 1;
      var m' := m[..n];
      var t' := Transpose(m', cols);
      TotalTranspose(m', cols);
      forall j | 0 <= j < cols
        ensures RowSums(t)[j] == RowSums(t')[j] + m[n][j]
      {
        assert t[j] == t'[j] + [m[n][j]];
        SumSnoc(t'[j], m[n][j]);
      }
      assert RowSums(t) == Add(RowSums(t'), m[n]);
      SumAdd(RowSums(t'), m[n]);
      assert RowSums(m) == RowSums(m') + [Sum(m[n])];
      SumSnoc(RowSums(m'), Sum(m[n]));
    }
  }

  // ---------------------------------------------------------------------------
  // Dot products and matrix products

  lemma DotSymmetric(u: Vector, v: Vector)
    requires |u| == |v|
    ensures Dot(u, v) == Dot(v, u)
  {
    assert forall i :: 0 <= i < |u| ==> Mul(u, v)[i] == Mul(v, u)[i];
    assert Mul(u, v) == Mul(v, u);
  }

  lemma DotAppend(a: Vector, b: Vector, c: Vector, d: Vector)
    requires |a| == |c| && |b| == |d|
    ensures Dot(a + b, c + d) == Dot(a, c) + Dot(b, d)
  {
    forall i | 0 <= i < |a| + |b|
      ensures Mul(a + b, c + d)[i] == (Mul(a, c) + Mul(b, d))[i]
    {
      if i < |a| {
        assert (a + b)[i] == a[i] && (c + d)[i] == c[i];
      } else {
        assert (a + b)[i] == b[i - |a|] && (c + d)[i] == d[i - |a|];
      }
    }
    assert Mul(a + b, c + d) == Mul(a, c) + Mul(b, d);
    SumAppend(Mul(a, c), Mul(b, d));
  }

  lemma DotAddRight(u: Vector, v: Vector, w: Vector)
    requires |u| == |v| == |w|
    ensures Dot(u, Add(v, w)) == Dot(u, v) + Dot(u, w)
  {
    forall i | 0 <= i < |u|
      ensures Mul(u, Add(v, w))[i] == Add(Mul(u, v), Mul(u, w))[i]
    {
      calc {
        Mul(u, Add(v, w))[i];
        u[i] * (v[i] + w[i]);
        u[i] * v[i] + u[i] * w[i];
      }
    }
    assert Mul(u, Add(v, w)) == Add(Mul(u, v), Mul(u, w));
    SumAdd(Mul(u, v), Mul(u, w));
  }

  lemma DotZeroRight(u: Vector, v: Vector)
    requires |u| == |v| && IsZero(v)
    ensures Dot(u, v) == 0.0
  {
    SumZero(Mul(u, v));
  }

  lemma DotScaleRight(c: real, u: Vector, v: Vector)
    requires |u| == |v|
    ensures Dot(u, Scale(c, v)) == c * Dot(u, v)
  {
    forall i | 0 <= i < |u|
      ensures Mul(u, Scale(c, v))[i] == Scale(c, Mul(u, v))[i]
    {
      assert u[i] * (c * v[i]) == c * (u[i] * v[i]);
    }
    assert Mul(u, Scale(c, v)) == Scale(c, Mul(u, v));
    SumScale(c, Mul(u, v));
  }

  /** The terms x[a]·B[a][c]·v[c] of the bilinear form x·B·v, one row per a. */
  function BilinearTerms(x: Vector, b: Matrix, v: Vector): (w: Matrix)
    requires IsMatrix(b, |x|, |v|)
    ensures IsMatrix(w, |x|, |v|)
    ensures forall a, c :: 0 <= a < |x| && 0 <= c < |v| ==> w[a][c] == x[a] * b[a][c] * v[c]
  {
    seq(|x|, a requires 0 <= a < |x| => seq(|v|, c requires 0 <= c < |v| => x[a] * b[a][c] * v[c]))
  }

  /** Summed row by row, the terms give x·(B·v). */
  lemma BilinearRows(x: Vector, b: Matrix, v: Vector)
    requires IsMatrix(b, |x|, |v|)
    ensures RowSums(BilinearTerms(x, b, v)) == Mul(x, MatVec(b, v))
  {
    var w := BilinearTerms(x, b, v);
    forall a | 0 <= a < |x|
      ensures RowSums(w)[a] == Mul(x, MatVec(b, v))[a]
    {
      forall c | 0 <= c < |v|
        ensures w[a][c] == Scale(x[a], Mul(b[a], v))[c]
      {
        assert x[a] * b[a][c] * v[c] == x[a] * (b[a][c] * v[c]);
      }
      assert w[a] == Scale(x[a], Mul(b[a], v));
      SumScale(x[a], Mul(b[a], v));
    }
  }

  /** Summed column by column, the terms give (xᵀ·B)·v. */
  lemma BilinearColumns(x: Vector, b: Matrix, v: Vector)
    requires IsMatrix(b, |x|, |v|)
    ensures RowSums(Transpose(BilinearTerms(x, b, v), |v|)) == Mul(RowTimes(x, b, |v|), v)
  {
    var p := |v|;
    var t := Transpose(BilinearTerms(x, b, v), p);
    forall c | 0 <= c < p
      ensures RowSums(t)[c] == Mul(RowTimes(x, b, p), v)[c]
    {
      forall a | 0 <= a < |x|
        ensures t[c][a] == Scale(v[c], Mul(x, Column(b, c)))[a]
      {
        assert x[a] * b[a][c] * v[c] == v[c] * (x[a] * b[a][c]);
      }
      assert t[c] == Scale(v[c], Mul(x, Column(b, c)));
      SumScale(v[c], Mul(x, Column(b, c)));
    }
  }

  /** The bilinear form x·B·v computed either way round. */
  lemma RowTimesDot(x: Vector, b: Matrix, v: Vector)
    requires IsMatrix(b, |x|, |v|)
    ensures Dot(RowTimes(x, b, |v|), v) == Dot(x, MatVec(b, v))
  {
    BilinearRows(x, b, v);
    BilinearColumns(x, b, v);
    TotalTranspose(BilinearTerms(x, b, v), |v|);
  }

  lemma MatVecAssoc(a: Matrix, b: Matrix, v: Vector)
    requires IsMatrix(a, |a|, |b|) && IsMatrix(b, |b|, |v|)
    ensures MatVec(MatMul(a, b, |v|), v) == MatVec(a, MatVec(b, v))
  {
    forall i | 0 <= i < |a|
      ensures MatVec(MatMul(a, b, |v|), v)[i] == MatVec(a, MatVec(b, v))[i]
    {
      RowTimesDot(a[i], b, v);
    }
  }

  lemma ColumnOfProduct(b: Matrix, c: Matrix, cols: nat, j: nat)
    requires IsMatrix(b, |b|, |c|) && IsMatrix(c, |c|, cols) && j < cols
    ensures Column(MatMul(b, c, cols), j) == MatVec(b, Column(c, j))
  {
    assert forall a :: 0 <= a < |b| ==> MatMul(b, c, cols)[a][j] == Dot(b[a], Column(c, j));
  }

  lemma MatMulAssoc(a: Matrix, b: Matrix, c: Matrix, cols: nat)
    requires IsMatrix(a, |a|, |b|) && IsMatrix(b, |b|, |c|) && IsMatrix(c, |c|, cols)
    ensures MatMul(MatMul(a, b, |c|), c, cols) == MatMul(a, MatMul(b, c, cols), cols)
  {
    var l := MatMul(MatMul(a, b, |c|), c, cols);
    var r := MatMul(a, MatMul(b, c, cols), cols);
    forall i, j | 0 <= i < |a| && 0 <= j < cols
      ensures l[i][j] == r[i][j]
    {
      ColumnOfProduct(b, c, cols, j);
      RowTimesDot(a[i], b, Column(c, j));
    }
    MatrixExt(l, r, |a|, cols);
  }

  lemma TransposeTwice(m: Matrix, cols: nat)
    requires IsMatrix(m, |m|, cols) && cols > 0
    ensures Transpose(Transpose(m, cols), |m|) == m
  {
    MatrixExt(Transpose(Transpose(m, cols), |m|), m, |m|, cols);
  }

  lemma TransposeOfProduct(a: Matrix, b: Matrix, cols: nat)
    requires IsMatrix(a, |a|, |b|) && IsMatrix(b, |b|, cols)
    ensures Transpose(MatMul(a, b, cols), cols) == MatMul(Transpose(b, cols), Transpose(a, |b|), |a|)
  {
    var l := Transpose(MatMul(a, b, cols), cols);
    var r := MatMul(Transpose(b, cols), Transpose(a, |b|), |a|);
    forall i, j | 0 <= i < cols && 0 <= j < |a|
      ensures l[i][j] == r[i][j]
    {
      assert Transpose(b, cols)[i] == Column(b, i);
      assert Column(Transpose(a, |b|), j) == a[j];
      DotSymmetric(a[j], Column(b, i));
    }
    MatrixExt(l, r, cols, |a|);
  }

  lemma SymmetricTranspose(m: Matrix)
    requires IsMatrix(m, |m|, |m|) && IsSymmetric(m)
    ensures Transpose(m, |m|) == m
  {
    MatrixExt(Transpose(m, |m|), m, |m|, |m|);
  }

  lemma MatVecAdd(m: Matrix, u: Vector, v: Vector)
    requires |u| == |v| && IsMatrix(m, |m|, |u|)
    ensures MatVec(m, Add(u, v)) == Add(MatVec(m, u), MatVec(m, v))
  {
    forall i | 0 <= i < |m|
      ensures MatVec(m, Add(u, v))[i] == Add(MatVec(m, u), MatVec(m, v))[i]
    {
      DotAddRight(m[i], u, v);
    }
  }

  lemma MatVecScale(m: Matrix, c: real, v: Vector)
    requires IsMatrix(m, |m|, |v|)
    ensures MatVec(m, Scale(c, v)) == Scale(c, MatVec(m, v))
  {
    forall i | 0 <= i < |m|
      ensures MatVec(m, Scale(c, v))[i] == Scale(c, MatVec(m, v))[i]
    {
      DotScaleRight(c, m[i], v);
    }
  }

  lemma MatVecZero(m: Matrix, v: Vector)
    requires IsMatrix(m, |m|, |v|) && IsZero(v)
    ensures IsZero(MatVec(m, v))
  {
    forall i | 0 <= i < |m|
      ensures MatVec(m, v)[i] == 0.0
    {
      DotZeroRight(m[i], v);
    }
  }

  /** Dot product of two 4-vectors, written out. */
  lemma Dot4(u: Vector, v: Vector)
    requires |u| == 4 && |v| == 4
    ensures Dot(u, v) == u[0] * v[0] + u[1] * v[1] + u[2] * v[2] + u[3] * v[3]
  {
    var w := Mul(u, v);
    assert SumTo(w, 1) == w[0];
    assert SumTo(w, 2) == w[0] + w[1];
    assert SumTo(w, 3) == w[0] + w[1] + w[2];
  }

  /** Dot product of two 6-vectors, written out. */
  lemma Dot6(u: Vector, v: Vector)
    requires |u| == 6 && |v| == 6
    ensures Dot(u, v) == u[0] * v[0] + u[1] * v[1] + u[2] * v[2] + u[3] * v[3] + u[4] * v[4] + u[5] * v[5]
  {
    var w := Mul(u, v);
    assert SumTo(w, 1) == w[0];
    assert SumTo(w, 2) == w[0] + w[1];
    assert SumTo(w, 3) == w[0] + w[1] + w[2];
    assert SumTo(w, 4) == w[0] + w[1] + w[2] + w[3];
    assert SumTo(w, 5) == w[0] + w[1] + w[2] + w[3] + w[4];
  }
}

=== FILE: load_vectors.dfy ===
/** The two load vectors of the system K·D + QF = Q: the fixed-end vector QF,
    scatter-added from every loaded bar's forces turned to global axes, and the
    nodal force vector Q, scatter-added from the nodal loads. Both are split at
    U like the stiffness matrix. */
module LoadVectors {
  import opened Common
  import opened LinAlg
  import opened Model
  import opened Numbering
  import opened Assembly

  /** A global vector split at U: the entries of the unknown displacements,
      then those of the prescribed ones. */
  datatype Halves = Halves(top: Vector, bottom: Vector)

  /** Splits `v` at `u`. */
  function Split(v: Vector, u: nat): (h: Halves)
    requires u <= |v|
    ensures |h.top| == u && h.top + h.bottom == v
  {
    Halves(v[..u], v[u..])
  }

  // ---------------------------------------------------------------------------
  // Fixed-end forces QF

  /** A loaded element's fixed-end forces in global orientation, Tᵀ·qF. */
  function ElementLoad(e: Element): (v: Vector)
    requires Shaped(e) && e.qf.Some?
    ensures |v| == |e.dofs|
  {
    MatVec(Transpose(e.t, |e.dofs|), e.qf.value)
  }

  /** The entries of `v` whose equation index is p, zeros elsewhere. */
  function MaskedVector(v: Vector, dofs: seq<int>, p: int): (w: Vector)
    requires |v| == |dofs|
    ensures |w| == |dofs|
    ensures forall i :: 0 <= i < |dofs| ==> w[i] == if dofs[i] == p then v[i] else 0.0
  {
    seq(|dofs|, i requires 0 <= i < |dofs| => if dofs[i] == p then v[i] else 0.0)
  }

  /** What one element adds to entry p of QF; a bar without fixed-end forces adds nothing. */
  function LoadContribution(e: Element, p: int): real
    requires Shaped(e)
  {
    if e.qf.None? then 0.0 else Sum(MaskedVector(ElementLoad(e), e.dofs, p))
  }

  /** Entry p of QF: the sum over loaded elements of their entries listed at p. */
  function FixedEndEntry(es: seq<Element>, p: int): real
    requires AllShaped(es)
    decreases |es|
  {
    if |es| == 0 then 0.0 else LoadContribution(es[0], p) + FixedEndEntry(es[1..], p)
  }

  /** The assembled QF, entry by entry. */
  function FixedEndVector(n: nat, es: seq<Element>): (v: Vector)
    requires AllShaped(es)
    ensures |v| == n && forall p :: 0 <= p < n ==> v[p] == FixedEndEntry(es, p)
  {
    seq(n, p requires 0 <= p < n => FixedEndEntry(es, p))
  }

  lemma {:induction false} FixedEndEntryAppend(a: seq<Element>, b: seq<Element>, p: int)
    requires AllShaped(a) && AllShaped(b)
    ensures AllShaped(a + b)
    ensures FixedEndEntry(a + b, p) == FixedEndEntry(a, p) + FixedEndEntry(b, p)
    decreases |a|
  {
    if |a| > 0 {
      assert (a + b)[1..] == a[1..] + b;
      FixedEndEntryAppend(a[1..], b, p);
    } else {
      assert a + b == b;
    }
  }

  /** Adds `ve` into `v0` through the index list, one entry at a time. */
  method ScatterVector(v0: Vector, n: nat, ve: Vector, dofs: seq<int>) returns (v: Vector)
    requires |v0| == n && |ve| == |dofs|
    requires forall i :: 0 <= i < |dofs| ==> 0 <= dofs[i] < n
    ensures |v| == n
    ensures forall p :: 0 <= p < n ==> v[p] == v0[p] + Sum(MaskedVector(ve, dofs, p))
  {
    v := v0;
    var i := 0;
    while i < |dofs|
      invariant 0 <= i <= |dofs| && |v| == n
      invariant forall p :: 0 <= p < n ==> v[p] == v0[p] + SumTo(MaskedVector(ve, dofs, p), i)
    {
      var ii := dofs[i];
      v := v[ii := v[ii] + ve[i]];
      i := i + 1;
    }
  }

  /** The program's fixed-end vector loop over the bars that carry forces,
      then the split at U into QF1 and QF2. */
  method AssembleFixedEndVector(n: nat, u: nat, es: seq<Element>) returns (qf: Halves)
    requires u <= n && AllValid(es, n)
    ensures qf == Split(FixedEndVector(n, es), u)
  {
    var v := Zeros(n);
    var b := 0;
    while b < |es|
      invariant 0 <= b <= |es| && |v| == n
      invariant forall p :: 0 <= p < n ==> v[p] == FixedEndEntry(es[..b], p)
    {
      var e := es[b];
      if e.qf.Some? {
        v := ScatterVector(v, n, ElementLoad(e), e.dofs);
      }
      forall p | 0 <= p < n
        ensures v[p] == FixedEndEntry(es[..b + 1], p)
      {
        assert es[..b + 1] == es[..b] + [e];
        FixedEndEntryAppend(es[..b], [e], p);
        assert FixedEndEntry([e], p) == LoadContribution(e, p) + FixedEndEntry([e][1..], p);
      }
      b := b + 1;
    }
    assert es[..|es|] == es;
    assert v == FixedEndVector(n, es);
    qf := Split(v, u);
  }

  // ---------------------------------------------------------------------------
  // Properties of QF

  /** A matrix whose column i holds c[i] in row dofs[i] and zeros elsewhere
      totals the sum of `c`: summing it row by row is summing `c` once. */
  lemma SpreadTotal(w: Matrix, c: Vector, dofs: seq<int>, n: nat)
    requires |c| == |dofs| && IsMatrix(w, n, |dofs|)
    requires forall i :: 0 <= i < |dofs| ==> 0 <= dofs[i] < n
    requires forall p, i :: 0 <= p < n && 0 <= i < |dofs| ==> w[p][i] == if dofs[i] == p then c[i] else 0.0
    ensures Total(w) == Sum(c)
  {
    var m := |dofs|;
    TotalTranspose(w, m);
    var t := Transpose(w, m);
    forall i | 0 <= i < m
      ensures RowSums(t)[i] == c[i]
    {
      forall p | 0 <= p < n && p != dofs[i]
        ensures t[i][p] == 0.0
      {
        assert t[i][p] == w[p][i];
      }
      SumSingle(t[i], dofs[i]);
      assert t[i][dofs[i]] == w[dofs[i]][i];
    }
    assert RowSums(t) == c;
  }

  /** Spreading a vector over the equations loses and duplicates nothing:
      the scattered entries add up to the vector's own sum. */
  lemma ScatterConserves(ve: Vector, dofs: seq<int>, n: nat)
    requires |ve| == |dofs| && forall i :: 0 <= i < |dofs| ==> 0 <= dofs[i] < n
    ensures Sum(seq(n, p requires 0 <= p < n => Sum(MaskedVector(ve, dofs, p)))) == Sum(ve)
  {
    var w: Matrix := seq(n, p requires 0 <= p < n => MaskedVector(ve, dofs, p));
    SpreadTotal(w, ve, dofs, n);
    assert RowSums(w) == seq(n, p requires 0 <= p < n => Sum(MaskedVector(ve, dofs, p)));
  }

  /** Sum of every loaded element's global fixed-end forces. */
  function ElementLoadTotal(es: seq<Element>): real
    requires AllShaped(es)
    decreases |es|
  {
    if |es| == 0 then 0.0
    else (if es[0].qf.Some? then Sum(ElementLoad(es[0])) else 0.0) + ElementLoadTotal(es[1..])
  }

  /** QF carries exactly the element forces: its entries add up to the sum of
      all the loaded elements' global fixed-end forces. */
  lemma {:induction false} FixedEndVectorConserves(n: nat, es: seq<Element>)
    requires AllValid(es, n)
    ensures Sum(FixedEndVector(n, es)) == ElementLoadTotal(es)
    decreases |es|
  {
    if |es| > 0 {
      var e := es[0];
      var rest := es[1..];
      assert AllValid(rest, n);
      FixedEndVectorConserves(n, rest);
      var own := seq(n, p requires 0 <= p < n => LoadContribution(e, p));
      assert FixedEndVector(n, es) == Add(own, FixedEndVector(n, rest));
      SumAdd(own, FixedEndVector(n, rest));
      if e.qf.Some? {
        ScatterConserves(ElementLoad(e), e.dofs, n);
        assert own == seq(n, p requires 0 <= p < n => Sum(MaskedVector(ElementLoad(e), e.dofs, p)));
      } else {
        SumZero(own);
      }
    } else {
      SumZero(FixedEndVector(n, es));
    }
  }

  // ---------------------------------------------------------------------------
  // Nodal forces Q

  /** Component c of a nodal load: FX, FY and MZ for c = 0, 1 and 2. */
  function Component(l: NodalLoad, c: nat): real
    requires c < 3
  {
    if c == 0 then l.fx else if c == 1 then l.fy else l.mz
  }

  /** Every load names a node the table holds. */
  predicate AllKnown(t: DofTable, loads: seq<NodalLoad>)
  {
    forall i :: 0 <= i < |loads| ==> loads[i].node in t.nodeNumbers
  }

  /** What the first c components of load `l`, applied at node row `row`, add to entry p of Q. */
  function PartialContribution(t: DofTable, row: nat, l: NodalLoad, p: int, c: nat): real
    requires ThreeSlotsPerNode(t) && row < |t.nodeNumbers| && c <= 3
    decreases c
  {
    if c == 0 then 0.0
    else PartialContribution(t, row, l, p, c - 1) + (if NodeDof(t, row, c - 1) == p then Component(l, c - 1) else 0.0)
  }

  /** What load `l` adds to entry p of Q: its components at the equations of its node's row. */
  function NodalContribution(t: DofTable, l: NodalLoad, p: int): real
    requires ThreeSlotsPerNode(t) && l.node in t.nodeNumbers
  {
    PartialContribution(t, Row(t, l.node), l, p, 3)
  }

  /** Entry p of Q: the contributions of all the loads, in input order. */
  function NodalEntry(t: DofTable, loads: seq<NodalLoad>, p: int): real
    requires ThreeSlotsPerNode(t) && AllKnown(t, loads)
    decreases |loads|
  {
    if |loads| == 0 then 0.0
    else NodalEntry(t, loads[..|loads| - 1], p) + NodalContribution(t, loads[|loads| - 1], p)
  }

  /** The assembled Q, entry by entry. */
  function ForceVector(t: DofTable, loads: seq<NodalLoad>): (v: Vector)
    requires ThreeSlotsPerNode(t) && AllKnown(t, loads)
    ensures |v| == t.dofCount && forall p :: 0 <= p < t.dofCount ==> v[p] == NodalEntry(t, loads, p)
  {
    seq(t.dofCount, p requires 0 <= p < t.dofCount => NodalEntry(t, loads, p))
  }

  /** The program's nodal force loop, then the split at U into Q1 and Q2. A
      load on a node the table does not hold stops the assembly with that node. */
  method AssembleForceVector(t: DofTable, loads: seq<NodalLoad>) returns (r: Result<Halves, Error>)
    requires ValidTable(t)
    ensures r.Failure? <==> !AllKnown(t, loads)
    ensures r.Failure? ==>
      exists i :: 0 <= i < |loads| && loads[i].node !in t.nodeNumbers
        && AllKnown(t, loads[..i]) && r.error == UnknownNode(loads[i].node)
    ensures r.Success? ==> r.value == Split(ForceVector(t, loads), t.unknownCount)
  {
    var q := Zeros(t.dofCount);
    var i := 0;
    while i < |loads|
      invariant 0 <= i <= |loads| && |q| == t.dofCount && AllKnown(t, loads[..i])
      invariant forall p :: 0 <= p < t.dofCount ==> q[p] == NodalEntry(t, loads[..i], p)
    {
      var l := loads[i];
      match IndexOf(t.nodeNumbers, l.node)
      case None =>
        return Failure(UnknownNode(l.node));
      case Some(row) =>
        var c := 0;
        var before := q;
        while c < 3
          invariant 0 <= c <= 3 && |q| == t.dofCount
          invariant forall p :: 0 <= p < t.dofCount ==> q[p] == before[p] + PartialContribution(t, row, l, p, c)
        {
          var dof := NodeDof(t, row, c);
          q := q[dof := q[dof] + Component(l, c)];
          c := c + 1;
        }
        assert loads[..i + 1][..i] == loads[..i];
        i := i + 1;
    }
    assert loads[..|loads|] == loads;
    assert q == ForceVector(t, loads);
    r := Success(Split(q, t.unknownCount));
  }

  /** Loads at node `x`, component c, summed in input order. */
  function LoadsAt(loads: seq<NodalLoad>, x: int, c: nat): real
    requires c < 3
    decreases |loads|
  {
    if |loads| == 0 then 0.0
    else LoadsAt(loads[..|loads| - 1], x, c) + (if loads[|loads| - 1].node == x then Component(loads[|loads| - 1], c) else 0.0)
  }

  /** A load reaches component c of node row `row` exactly when it is applied
      to that row's node, and then it brings its own component c. */
  lemma ContributionAt(t: DofTable, l: NodalLoad, row: nat, c: nat)
    requires ValidTable(t) && l.node in t.nodeNumbers && row < |t.nodeNumbers| && c < 3
    requires Row(t, t.nodeNumbers[row]) == row
    ensures NodalContribution(t, l, NodeDof(t, row, c)) == if l.node == t.nodeNumbers[row] then Component(l, c) else 0.0
  {
    var r := Row(t, l.node);
    var p := NodeDof(t, row, c);
    forall c' | 0 <= c' < 3
      ensures NodeDof(t, r, c') == p <==> r == row && c' == c
    {
      assert 3 * r + c' < |t.dofs| && 3 * row + c < |t.dofs|;
      if NodeDof(t, r, c') == p {
        assert 3 * r + c' == 3 * row + c;
      }
    }
    assert r == row <==> l.node == t.nodeNumbers[row];
  }

  /** Entry c of a node's equations in Q holds the sum of component c of
      every load applied to that node. */
  lemma {:induction false} ForceVectorAtNode(t: DofTable, loads: seq<NodalLoad>, row: nat, c: nat)
    requires ValidTable(t) && AllKnown(t, loads) && row < |t.nodeNumbers| && c < 3
    requires Row(t, t.nodeNumbers[row]) == row
    ensures NodalEntry(t, loads, NodeDof(t, row, c)) == LoadsAt(loads, t.nodeNumbers[row], c)
    decreases |loads|
  {
    if |loads| > 0 {
      var front := loads[..|loads| - 1];
      assert AllKnown(t, front);
      ForceVectorAtNode(t, front, row, c);
      ContributionAt(t, loads[|loads| - 1], row, c);
    }
  }
}

=== FILE: model.dfy ===
/** The structural model as the loader hands it to the engine: typed records in
    place of the loosely keyed dictionaries of the program. */
module Model {

  /** A joint, identified by its number; coordinates are carried but the engine
      receives each bar's length and direction cosines already computed. */
  datatype Node = Node(number: int, x: real, y: real)

  /** Support flags of one node; a flag equal to 1 fixes that component, any
      other value leaves it free. */
  datatype Restraint = Restraint(node: int, tx: int, ty: int, rz: int)

  /** The element type read from the model; any name other than the two known
      ones is kept as read. `TypeOf` never puts "TRUSS" or "FRAME" in an
      `Unrecognised`, so every bar it types is `WellTyped`. */
  datatype ElementType = Truss | Frame | Unrecognised(name: string)

  /** Only the names the type dispatch does not recognise are `Unrecognised`. */
  predicate WellTyped(k: ElementType)
  {
    k.Unrecognised? ==> k.name != "TRUSS" && k.name != "FRAME"
  }

  /** The type dispatch on a bar's type name: exactly "TRUSS" and "FRAME" are
      the known types, compared as whole strings. */
  function TypeOf(name: string): (k: ElementType)
    ensures k == Truss <==> name == "TRUSS"
    ensures k == Frame <==> name == "FRAME"
    ensures k.Unrecognised? ==> k.name == name
    ensures WellTyped(k)
  {
    if name == "TRUSS" then Truss
    else if name == "FRAME" then Frame
    else Unrecognised(name)
  }

  /** The name a type is read from. */
  function TypeName(k: ElementType): string
  {
    match k
    case Truss => "TRUSS"
    case Frame => "FRAME"
    case Unrecognised(name) => name
  }

  /** Typing a name and naming the type gives the name back; naming a
      well-typed type and typing the name gives the type back. */
  lemma TypeNameRoundTrip(name: string, k: ElementType)
    ensures TypeName(TypeOf(name)) == name
    ensures WellTyped(k) ==> TypeOf(TypeName(k)) == k
  {
  }

  /** A member between two nodes, with its section area, elastic modulus,
      second moment of area, length and direction cosines. */
  datatype Bar = Bar(id: int, node1: int, node2: int, kind: ElementType,
                     area: real, modulus: real, inertia: real,
                     length: real, cos: real, sin: real)

  /** Forces FX, FY and moment MZ applied directly at a node. */
  datatype NodalLoad = NodalLoad(node: int, fx: real, fy: real, mz: real)

  /** A trapezoidal load on a bar: intensity `wa` at local position `a`,
      `wb` at `b`; the span (0, 0) stands for the whole bar. */
  datatype BarLoad = BarLoad(bar: int, a: real, wa: real, b: real, wb: real)

  function NodeNumbers(nodes: seq<Node>): (r: seq<int>)
    ensures |r| == |nodes| && forall i :: 0 <= i < |nodes| ==> r[i] == nodes[i].number
  {
    seq(|nodes|, i requires 0 <= i < |nodes| => nodes[i].number)
  }
}

=== FILE: numbering.dfy ===
/** Degree-of-freedom numbering: every node owns three slots (TX, TY, RZ);
    free slots are numbered first, restrained slots after them, both in node
    order and then component order. The table is stored flat: the slot of
    component `col` of the node in row `row` sits at index 3 * row + col. */
module Numbering {
  import opened Common
  import opened Model

  /** State of a slot after the restraints have been applied (the program's
      -2 and -1 sentinels). */
  datatype Slot = Free | Restrained

  /** Result of the numbering: total count N, unknown count U, the equation
      index of every slot, and the node numbers in row order. */
  datatype DofTable = DofTable(dofCount: nat, unknownCount: nat, dofs: seq<int>, nodeNumbers: seq<int>)

  /** Restraint flag for component `col` (0 = TX, 1 = TY, 2 = RZ). */
  function Flag(r: Restraint, col: nat): int
    requires col < 3
  {
    if col == 0 then r.tx else if col == 1 then r.ty else r.rz
  }

  /** Restraint `r` fixes slot `k`: it names the node of row k / 3 and its
      flag for component k % 3 is 1. */
  predicate Fixes(r: Restraint, nodeNumbers: seq<int>, k: nat)
  {
    IndexOf(nodeNumbers, r.node) == Some(k / 3) && Flag(r, k % 3) == 1
  }

  /** Some restraint fixes slot `k`. */
  predicate IsFixed(restraints: seq<Restraint>, nodeNumbers: seq<int>, k: nat)
  {
    exists i :: 0 <= i < |restraints| && Fixes(restraints[i], nodeNumbers, k)
  }

  /** `d` holds each of 0 .. |d| - 1 exactly once. */
  predicate IsPermutation(d: seq<int>)
  {
    && (forall k :: 0 <= k < |d| ==> 0 <= d[k] < |d|)
    && (forall i, j :: 0 <= i < j < |d| ==> d[i] != d[j])
    && (forall v :: 0 <= v < |d| ==> v in d)
  }

  /** The flat slot list holds three slots per node. */
  predicate ThreeSlotsPerNode(t: DofTable)
  {
    |t.dofs| == 3 * |t.nodeNumbers|
  }

  /** A table the rest of the engine can rely on. */
  predicate ValidTable(t: DofTable)
  {
    && ThreeSlotsPerNode(t)
    && t.dofCount == |t.dofs|
    && t.unknownCount <= t.dofCount
    && IsPermutation(t.dofs)
  }

  /** Equation index of component `col` of the node in row `row`. */
  function NodeDof(t: DofTable, row: nat, col: nat): int
    requires ThreeSlotsPerNode(t) && row < |t.nodeNumbers| && col < 3
  {
    t.dofs[3 * row + col]
  }

  /** The row of a node in the table, for a node the table holds: the first row listing it. */
  function Row(t: DofTable, node: int): (row: nat)
    requires node in t.nodeNumbers
    ensures row < |t.nodeNumbers| && t.nodeNumbers[row] == node
    ensures forall j :: 0 <= j < row ==> t.nodeNumbers[j] != node
  {
    IndexOf(t.nodeNumbers, node).value
  }

  // ---------------------------------------------------------------------------
  // Phase one: mark restrained slots

  /** Marks, in the slots of node row `row`, the components `r` flags with 1. */
  function MarkRow(slots: seq<Slot>, row: nat, r: Restraint): (m: seq<Slot>)
    ensures |m| == |slots|
    ensures forall k :: 0 <= k < |slots| ==>
      (m[k] == Restrained <==> slots[k] == Restrained || (k / 3 == row && Flag(r, k % 3) == 1))
  {
    seq(|slots|, k requires 0 <= k < |slots| =>
      if k / 3 == row && Flag(r, k % 3) == 1 then Restrained else slots[k])
  }

  /** Applies every restraint in order; a restraint naming an unknown node
      aborts with that node's number. */
  function MarkAll(slots: seq<Slot>, nodeNumbers: seq<int>, restraints: seq<Restraint>): (r: Result<seq<Slot>, Error>)
    decreases |restraints|
    ensures r.Failure? <==> exists i :: 0 <= i < |restraints| && restraints[i].node !in nodeNumbers
    ensures r.Failure? ==> exists i :: 0 <= i < |restraints| && restraints[i].node !in nodeNumbers
                                       && r.error == UnknownNode(restraints[i].node)
                                       && forall j :: 0 <= j < i ==> restraints[j].node in nodeNumbers
    ensures r.Success? ==> |r.value| == |slots|
    ensures r.Success? ==> forall k :: 0 <= k < |slots| ==>
      (r.value[k] == Restrained <==> slots[k] == Restrained || IsFixed(restraints, nodeNumbers, k))
  {
    if |restraints| == 0 then Success(slots)
    else
      var first := restraints[0];
      match IndexOf(nodeNumbers, first.node)
      case None => Failure(UnknownNode(first.node))
      case Some(row) =>
        var r := MarkAll(MarkRow(slots, row, first), nodeNumbers, restraints[1..]);
        assert forall i :: 1 <= i < |restraints| ==> restraints[i] == restraints[1..][i - 1];
        assert r.Failure? ==> exists i :: 1 <= i < |restraints| && restraints[i].node !in nodeNumbers
                                          && r.error == UnknownNode(restraints[i].node)
                                          && forall j :: 0 <= j < i ==> restraints[j].node in nodeNumbers;
        assert r.Success? ==> forall k :: 0 <= k < |slots| ==>
          (IsFixed(restraints, nodeNumbers, k) <==> Fixes(first, nodeNumbers, k) || IsFixed(restraints[1..], nodeNumbers, k));
        r
  }

  // ---------------------------------------------------------------------------
  // Phase two: counting and ranking

  /** Number of slots in state `x` among the first `j` slots of `s`. */
  function CountTo(s: seq<Slot>, x: Slot, j: nat): (c: nat)
    requires j <= |s|
    ensures c <= j
  {
    if j == 0 then 0 else CountTo(s, x, j - 1) + (if s[j - 1] == x then 1 else 0)
  }

  /** Number of free slots in `s`: the unknown count U. */
  function FreeCount(s: seq<Slot>): nat
  {
    CountTo(s, Free, |s|)
  }

  /** Positions of the first `j` slots of `s` that are in state `x`. */
  function Positions(s: seq<Slot>, x: Slot, j: nat): set<nat>
    requires j <= |s|
  {
    set k: nat | k < j && s[k] == x
  }

  /** The index the numbering gives slot `k`: free slots count the free slots
      before them; restrained slots follow all free ones and count the
      restrained slots before them. */
  function Rank(s: seq<Slot>, k: nat): int
    requires k < |s|
  {
    if s[k] == Free then CountTo(s, Free, k) else FreeCount(s) + CountTo(s, Restrained, k)
  }

  lemma {:induction false} CountSplit(s: seq<Slot>, j: nat)
    requires j <= |s|
    ensures CountTo(s, Free, j) + CountTo(s, Restrained, j) == j
  {
    if j > 0 {
      CountSplit(s, j - 1);
    }
  }

  lemma {:induction false} CountMono(s: seq<Slot>, x: Slot, i: nat, j: nat)
    requires i <= j <= |s|
    ensures CountTo(s, x, i) <= CountTo(s, x, j)
  {
    if i < j {
      CountMono(s, x, i, j - 1);
    }
  }

  /** Every value below the count of `x` in a prefix is the count before some
      `x` slot of that prefix. */
  lemma {:induction false} CountOnto(s: seq<Slot>, x: Slot, j: nat, v: nat)
    requires j <= |s| && v < CountTo(s, x, j)
    ensures exists k :: 0 <= k < j && s[k] == x && CountTo(s, x, k) == v
  {
    if v < CountTo(s, x, j - 1) {
      CountOnto(s, x, j - 1, v);
    } else {
      assert s[j - 1] == x && CountTo(s, x, j - 1) == v;
    }
  }

  /** The number of `x` slots in a prefix is the size of the set of their positions. */
  lemma {:induction false} CountIsCardinality(s: seq<Slot>, x: Slot, j: nat)
    requires j <= |s|
    ensures CountTo(s, x, j) == |Positions(s, x, j)|
  {
    if j == 0 {
      assert Positions(s, x, j) == {};
    } else {
      CountIsCardinality(s, x, j - 1);
      if s[j - 1] == x {
        assert Positions(s, x, j) == Positions(s, x, j - 1) + {j - 1};
      } else {
        assert Positions(s, x, j) == Positions(s, x, j - 1);
      }
    }
  }

  lemma RankBlocks(s: seq<Slot>, k: nat)
    requires k < |s|
    ensures s[k] == Free ==> 0 <= Rank(s, k) < FreeCount(s)
    ensures s[k] == Restrained ==> FreeCount(s) <= Rank(s, k) < |s|
  {
    CountMono(s, s[k], k + 1, |s|);
    CountSplit(s, |s|);
  }

  /** Within each block, ranks increase with the slot position. */
  lemma RankIncreasing(s: seq<Slot>, i: nat, j: nat)
    requires i < j < |s| && s[i] == s[j]
    ensures Rank(s, i) < Rank(s, j)
  {
    CountMono(s, s[i], i + 1, j);
  }

  lemma RankOnto(s: seq<Slot>, v: nat)
    requires v < |s|
    ensures exists k :: 0 <= k < |s| && Rank(s, k) == v
  {
    CountSplit(s, |s|);
    if v < FreeCount(s) {
      CountOnto(s, Free, |s|, v);
      var k :| 0 <= k < |s| && s[k] == Free && CountTo(s, Free, k) == v;
      assert Rank(s, k) == v;
    } else {
      CountOnto(s, Restrained, |s|, v - FreeCount(s));
      var k :| 0 <= k < |s| && s[k] == Restrained && CountTo(s, Restrained, k) == v - FreeCount(s);
      assert Rank(s, k) == v;
    }
  }

  /** The ranks of all slots form a permutation split at the free count. */
  lemma RankPermutation(s: seq<Slot>, d: seq<int>)
    requires |d| == |s| && forall k :: 0 <= k < |s| ==> d[k] == Rank(s, k)
    ensures IsPermutation(d)
    ensures forall k :: 0 <= k < |s| ==> (d[k] < FreeCount(s) <==> s[k] == Free)
    ensures forall i, j :: 0 <= i < j < |s| && s[i] == s[j] ==> d[i] < d[j]
  {
    forall k | 0 <= k < |s|
      ensures 0 <= d[k] < |s| && (d[k] < FreeCount(s) <==> s[k] == Free)
    {
      RankBlocks(s, k);
    }
    forall i, j | 0 <= i < j < |s|
      ensures d[i] != d[j] && (s[i] == s[j] ==> d[i] < d[j])
    {
      RankBlocks(s, i);
      RankBlocks(s, j);
      if s[i] == s[j] {
        RankIncreasing(s, i, j);
      }
    }
    forall v | 0 <= v < |s|
      ensures v in d
    {
      RankOnto(s, v);
      var k :| 0 <= k < |s| && Rank(s, k) == v;
      assert d[k] == v;
    }
  }

  /** One numbering pass: walks the slots in order and gives each slot of
      kind `x` the next index from `start` on; other slots keep their index. */
  method NumberPass(s: seq<Slot>, x: Slot, start: int, dofs0: seq<int>) returns (dofs: seq<int>, next: int)
    requires |dofs0| == |s|
    ensures |dofs| == |s| && next == start + CountTo(s, x, |s|)
    ensures forall j :: 0 <= j < |s| ==> dofs[j] == if s[j] == x then start + CountTo(s, x, j) else dofs0[j]
  {
    dofs := dofs0;
    next := start;
    var k := 0;
    while k < |s|
      invariant 0 <= k <= |s| && |dofs| == |s|
      invariant next == start + CountTo(s, x, k)
      invariant forall j :: 0 <= j < k ==> dofs[j] == if s[j] == x then start + CountTo(s, x, j) else dofs0[j]
      invariant forall j :: k <= j < |s| ==> dofs[j] == dofs0[j]
    {
      if s[k] == x {
        dofs := dofs[k := next];
        next := next + 1;
      }
      k := k + 1;
    }
  }

  /** The two passes of the program: free slots numbered from 0, then
      restrained slots numbered from U. */
  method NumberSlots(s: seq<Slot>) returns (dofs: seq<int>, u: nat)
    ensures u == FreeCount(s)
    ensures |dofs| == |s| && forall k :: 0 <= k < |s| ==> dofs[k] == Rank(s, k)
  {
    var free, next := NumberPass(s, Free, 0, seq(|s|, _ => 0));
    u := next;
    dofs, next := NumberPass(s, Restrained, u, free);
  }


  /** GenerateDOF in Routines.py: marks the restrained slots, then numbers
      the free ones 0 .. U - 1 and the restrained ones U .. N - 1. */
  method GenerateDof(nodes: seq<Node>, restraints: seq<Restraint>) returns (r: Result<DofTable, Error>)
    ensures r.Failure? <==> exists i :: 0 <= i < |restraints| && restraints[i].node !in NodeNumbers(nodes)
    ensures r.Failure? ==> exists i :: 0 <= i < |restraints| && restraints[i].node !in NodeNumbers(nodes)
                                       && r.error == UnknownNode(restraints[i].node)
                                       && forall j :: 0 <= j < i ==> restraints[j].node in NodeNumbers(nodes)
    ensures r.Success? ==> ValidTable(r.value) && r.value.nodeNumbers == NodeNumbers(nodes)
                           && r.value.dofCount == 3 * |nodes|
    ensures r.Success? ==> forall k :: 0 <= k < 3 * |nodes| ==>
      (r.value.dofs[k] < r.value.unknownCount <==> !IsFixed(restraints, NodeNumbers(nodes), k))
    ensures r.Success? ==>
      r.value.unknownCount == |set k: nat | k < 3 * |nodes| && !IsFixed(restraints, NodeNumbers(nodes), k)|
    ensures r.Success? ==>
      forall i, j :: 0 <= i < j < 3 * |nodes| &&
        IsFixed(restraints, NodeNumbers(nodes), i) == IsFixed(restraints, NodeNumbers(nodes), j)
        ==> r.value.dofs[i] < r.value.dofs[j]
  {
    var nodeNumbers := NodeNumbers(nodes);
    var initial := seq(3 * |nodes|, _ => Free);
    var marked := MarkAll(initial, nodeNumbers, restraints);
    if marked.Failure? {
      return Failure(marked.error);
    }
    var s := marked.value;
    var dofs, u := NumberSlots(s);
    RankPermutation(s, dofs);
    assert forall k :: 0 <= k < |s| ==> (s[k] == Free <==> !IsFixed(restraints, nodeNumbers, k));
    CountIsCardinality(s, Free, |s|);
    assert Positions(s, Free, |s|) == set k: nat | k < 3 * |nodes| && !IsFixed(restraints, nodeNumbers, k);
    CountSplit(s, |s|);
    r := Success(DofTable(|s|, u, dofs, nodeNumbers));
  }
}

=== FILE: recovery.dfy ===
/** What follows the solve: the support reactions from the second block row of
    the partitioned system, and each bar's end forces in its own axes from the
    global displacement vector. */
module Recovery {
  import opened LinAlg
  import opened Assembly
  import opened LoadVectors

  /** The four blocks have the shapes of an n x n matrix split at u. */
  predicate BlocksShaped(b: Blocks, n: nat, u: nat)
  {
    && u <= n
    && IsMatrix(b.k11, u, u) && IsMatrix(b.k12, u, n - u)
    && IsMatrix(b.k21, n - u, u) && IsMatrix(b.k22, n - u, n - u)
  }

  /** A split vector of length n with u entries on top. */
  predicate HalvesShaped(h: Halves, n: nat, u: nat)
  {
    u <= n && |h.top| == u && |h.bottom| == n - u
  }

  /** The first block row K11·Du + K12·Dk + QF1 = Q1, which the unknown
      displacements Du are computed to satisfy. */
  predicate SolvesFirstRow(b: Blocks, qf: Halves, q: Halves, du: Vector, dk: Vector, n: nat, u: nat)
    requires BlocksShaped(b, n, u) && HalvesShaped(qf, n, u) && HalvesShaped(q, n, u)
    requires |du| == u && |dk| == n - u
  {
    Add(Add(MatVec(b.k11, du), MatVec(b.k12, dk)), qf.top) == q.top
  }

  /** The reactions R at the prescribed equations: the second block row
      K21·Du + K22·Dk + QF2 = Q2 + R solved for R. */
  function SolveReactions(b: Blocks, qf: Halves, q: Halves, du: Vector, dk: Vector, n: nat, u: nat): (r: Vector)
    requires BlocksShaped(b, n, u) && HalvesShaped(qf, n, u) && HalvesShaped(q, n, u)
    requires |du| == u && |dk| == n - u
    ensures |r| == n - u
    ensures Add(Add(MatVec(b.k21, du), MatVec(b.k22, dk)), qf.bottom) == Add(q.bottom, r)
  {
    var r := Sub(Add(Add(MatVec(b.k21, du), MatVec(b.k22, dk)), qf.bottom), q.bottom);
    assert Add(q.bottom, r) == Add(Add(MatVec(b.k21, du), MatVec(b.k22, dk)), qf.bottom);
    r
  }

  /** Entrywise sum of two split vectors. */
  function Plus(g: Halves, h: Halves): (s: Halves)
    requires |g.top| == |h.top| && |g.bottom| == |h.bottom|
    ensures s.top + s.bottom == Add(g.top + g.bottom, h.top + h.bottom)
  {
    var s := Halves(Add(g.top, h.top), Add(g.bottom, h.bottom));
    assert s.top + s.bottom == Add(g.top + g.bottom, h.top + h.bottom);
    s
  }

  /** The reactions are linear: the reactions of two superposed load cases
      and displacement states are the sum of their separate reactions. */
  lemma ReactionsSuperpose(b: Blocks, n: nat, u: nat,
                           qf1: Halves, q1: Halves, du1: Vector, dk1: Vector,
                           qf2: Halves, q2: Halves, du2: Vector, dk2: Vector)
    requires BlocksShaped(b, n, u)
    requires HalvesShaped(qf1, n, u) && HalvesShaped(q1, n, u) && |du1| == u && |dk1| == n - u
    requires HalvesShaped(qf2, n, u) && HalvesShaped(q2, n, u) && |du2| == u && |dk2| == n - u
    ensures SolveReactions(b, Plus(qf1, qf2), Plus(q1, q2), Add(du1, du2), Add(dk1, dk2), n, u)
      == Add(SolveReactions(b, qf1, q1, du1, dk1, n, u), SolveReactions(b, qf2, q2, du2, dk2, n, u))
  {
    MatVecAdd(b.k21, du1, du2);
    MatVecAdd(b.k22, dk1, dk2);
  }

  /** Both halves of a split vector scaled by c. */
  function Times(c: real, g: Halves): (s: Halves)
    ensures s.top + s.bottom == Scale(c, g.top + g.bottom)
  {
    var s := Halves(Scale(c, g.top), Scale(c, g.bottom));
    forall i | 0 <= i < |g.top| + |g.bottom|
      ensures (s.top + s.bottom)[i] == Scale(c, g.top + g.bottom)[i]
    {
      if i >= |g.top| {
        assert (s.top + s.bottom)[i] == s.bottom[i - |g.top|];
      }
    }
    s
  }

  /** One reaction: the second block row's product, plus the fixed-end force,
      minus the load, at that equation. */
  lemma ReactionEntry(b: Blocks, qf: Halves, q: Halves, du: Vector, dk: Vector, n: nat, u: nat, i: nat)
    requires BlocksShaped(b, n, u) && HalvesShaped(qf, n, u) && HalvesShaped(q, n, u)
    requires |du| == u && |dk| == n - u && i < n - u
    ensures SolveReactions(b, qf, q, du, dk, n, u)[i]
      == MatVec(b.k21, du)[i] + MatVec(b.k22, dk)[i] + qf.bottom[i] - q.bottom[i]
  {
    var r := SolveReactions(b, qf, q, du, dk, n, u);
    assert Add(Add(MatVec(b.k21, du), MatVec(b.k22, dk)), qf.bottom)[i] == Add(q.bottom, r)[i];
  }

  /** The reactions scale with the loading: scaling the displacements, the
      fixed-end forces and the loads by c scales the reactions by c. */
  lemma ReactionsScale(b: Blocks, n: nat, u: nat, c: real, qf: Halves, q: Halves, du: Vector, dk: Vector)
    requires BlocksShaped(b, n, u)
    requires HalvesShaped(qf, n, u) && HalvesShaped(q, n, u) && |du| == u && |dk| == n - u
    ensures SolveReactions(b, Times(c, qf), Times(c, q), Scale(c, du), Scale(c, dk), n, u)
      == Scale(c, SolveReactions(b, qf, q, du, dk, n, u))
  {
    var cqf, cq := Times(c, qf), Times(c, q);
    var lhs := SolveReactions(b, cqf, cq, Scale(c, du), Scale(c, dk), n, u);
    var r := SolveReactions(b, qf, q, du, dk, n, u);
    MatVecScale(b.k21, c, du);
    MatVecScale(b.k22, c, dk);
    forall i | 0 <= i < n - u
      ensures lhs[i] == Scale(c, r)[i]
    {
      var x, y := MatVec(b.k21, du)[i], MatVec(b.k22, dk)[i];
      ReactionEntry(b, cqf, cq, Scale(c, du), Scale(c, dk), n, u, i);
      ReactionEntry(b, qf, q, du, dk, n, u, i);
      assert lhs[i] == c * x + c * y + c * qf.bottom[i] - c * q.bottom[i];
      assert c * (x + y + qf.bottom[i] - q.bottom[i]) == c * x + c * y + c * qf.bottom[i] - c * q.bottom[i];
    }
  }

  /** No displacement, no fixed-end force and no load: no reaction. */
  lemma ReactionsAtRest(b: Blocks, n: nat, u: nat)
    requires BlocksShaped(b, n, u)
    ensures var zero := Halves(Zeros(u), Zeros(n - u));
      SolveReactions(b, zero, zero, Zeros(u), Zeros(n - u), n, u) == Zeros(n - u)
  {
    MatVecZero(b.k21, Zeros(u));
    MatVecZero(b.k22, Zeros(n - u));
  }

  /** Row i of the tiled matrix times a split vector is the block-row product. */
  lemma TileRowTimes(b: Blocks, n: nat, u: nat, du: Vector, dk: Vector, i: nat)
    requires BlocksShaped(b, n, u) && |du| == u && |dk| == n - u && i < n
    ensures i < u ==> MatVec(Tile(b, n, u), du + dk)[i] == MatVec(b.k11, du)[i] + MatVec(b.k12, dk)[i]
    ensures u <= i ==>
      MatVec(Tile(b, n, u), du + dk)[i] == MatVec(b.k21, du)[i - u] + MatVec(b.k22, dk)[i - u]
  {
    var k := Tile(b, n, u);
    if i < u {
      assert k[i] == b.k11[i] + b.k12[i];
      DotAppend(b.k11[i], b.k12[i], du, dk);
    } else {
      assert k[i] == b.k21[i - u] + b.k22[i - u];
      DotAppend(b.k21[i - u], b.k22[i - u], du, dk);
    }
  }

  /** The tiled matrix times (Du; Dk) is the pair of block-row products. */
  lemma TiledProduct(b: Blocks, n: nat, u: nat, du: Vector, dk: Vector)
    requires BlocksShaped(b, n, u) && |du| == u && |dk| == n - u
    ensures MatVec(Tile(b, n, u), du + dk)
      == Add(MatVec(b.k11, du), MatVec(b.k12, dk)) + Add(MatVec(b.k21, du), MatVec(b.k22, dk))
  {
    var top := Add(MatVec(b.k11, du), MatVec(b.k12, dk));
    var bottom := Add(MatVec(b.k21, du), MatVec(b.k22, dk));
    forall i | 0 <= i < n
      ensures MatVec(Tile(b, n, u), du + dk)[i] == (top + bottom)[i]
    {
      TileRowTimes(b, n, u, du, dk, i);
    }
  }

  /** With Du solving the first row and R from the second, the whole system
      K·D + QF = Q + (0; R) holds, where K is the tiled matrix and D = (Du; Dk). */
  lemma Equilibrium(b: Blocks, qf: Halves, q: Halves, du: Vector, dk: Vector, n: nat, u: nat)
    requires BlocksShaped(b, n, u) && HalvesShaped(qf, n, u) && HalvesShaped(q, n, u)
    requires |du| == u && |dk| == n - u
    requires SolvesFirstRow(b, qf, q, du, dk, n, u)
    ensures Add(MatVec(Tile(b, n, u), du + dk), qf.top + qf.bottom)
      == Add(q.top + q.bottom, Zeros(u) + SolveReactions(b, qf, q, du, dk, n, u))
  {
    var r := SolveReactions(b, qf, q, du, dk, n, u);
    var top := Add(MatVec(b.k11, du), MatVec(b.k12, dk));
    var bottom := Add(MatVec(b.k21, du), MatVec(b.k22, dk));
    TiledProduct(b, n, u, du, dk);
    AddConcat(top, bottom, qf.top, qf.bottom);
    AddConcat(q.top, q.bottom, Zeros(u), r);
    AddZeros(q.top);
  }

  /** For the assembled stiffness matrix: the blocks the assembly returns,
      the first row solved and R from the second give K·D + QF = Q + (0; R)
      on the unpartitioned global system. */
  lemma AssembledEquilibrium(es: seq<Element>, qf: Halves, q: Halves, du: Vector, dk: Vector, n: nat, u: nat)
    requires u <= n && AllShaped(es) && HalvesShaped(qf, n, u) && HalvesShaped(q, n, u)
    requires |du| == u && |dk| == n - u
    requires SolvesFirstRow(Partition(GlobalStiffness(n, es), n, u), qf, q, du, dk, n, u)
    ensures Add(MatVec(GlobalStiffness(n, es), du + dk), qf.top + qf.bottom)
      == Add(q.top + q.bottom, Zeros(u) + SolveReactions(Partition(GlobalStiffness(n, es), n, u), qf, q, du, dk, n, u))
  {
    var k := GlobalStiffness(n, es);
    TilePartition(k, n, u);
    Equilibrium(Partition(k, n, u), qf, q, du, dk, n, u);
  }

  // ---------------------------------------------------------------------------
  // Element forces

  /** The element's displacements, read from the global vector through its index list. */
  function Gather(d: Vector, dofs: seq<int>): (de: Vector)
    requires forall i :: 0 <= i < |dofs| ==> 0 <= dofs[i] < |d|
    ensures |de| == |dofs|
    ensures forall i :: 0 <= i < |dofs| ==> de[i] == d[dofs[i]]
  {
    seq(|dofs|, i requires 0 <= i < |dofs| => d[dofs[i]])
  }

  /** The bar's end forces in its own axes, q = k·T·De + qF, the last term
      only when the bar carries fixed-end forces. */
  function ElementForces(e: Element, d: Vector): (q: Vector)
    requires ValidElement(e, |d|)
    ensures |q| == |e.dofs|
  {
    var m := |e.dofs|;
    var elastic := MatVec(MatMul(e.k, e.t, m), Gather(d, e.dofs));
    if e.qf.Some? then Add(elastic, e.qf.value) else elastic
  }

  /** The program's element-force loop: D = (Du; Dk), then for every bar the
      gathered De and q = k·T·De (+ qF). */
  method SolveElementForces(es: seq<Element>, du: Vector, dk: Vector) returns (qs: seq<Vector>)
    requires AllValid(es, |du| + |dk|)
    ensures |qs| == |es|
    ensures forall b :: 0 <= b < |es| ==> qs[b] == ElementForces(es[b], du + dk)
  {
    var d := du + dk;
    qs := [];
    var b := 0;
    while b < |es|
      invariant 0 <= b <= |es| && |qs| == b
      invariant forall c :: 0 <= c < b ==> qs[c] == ElementForces(es[c], d)
    {
      var e := es[b];
      var m := |e.dofs|;
      var de := Zeros(m);
      var i := 0;
      while i < m
        invariant 0 <= i <= m && |de| == m
        invariant forall j :: 0 <= j < i ==> de[j] == d[e.dofs[j]]
      {
        de := de[i := d[e.dofs[i]]];
        i := i + 1;
      }
      assert de == Gather(d, e.dofs);
      var q := MatVec(MatMul(e.k, e.t, m), de);
      if e.qf.Some? {
        q := Add(q, e.qf.value);
      }
      qs := qs + [q];
      b := b + 1;
    }
  }

  /** Turned back to global axes, the end forces are the element stiffness
      times the element displacements plus the global fixed-end forces:
      Tᵀ·q = Ke·De + Tᵀ·qF, the element's own share of K·D + QF. */
  lemma ElementForcesInGlobalAxes(e: Element, d: Vector)
    requires ValidElement(e, |d|)
    ensures var m := |e.dofs|;
      var elastic := MatVec(GlobalElementStiffness(e), Gather(d, e.dofs));
      MatVec(Transpose(e.t, m), ElementForces(e, d))
        == if e.qf.Some? then Add(elastic, ElementLoad(e)) else elastic
  {
    var m := |e.dofs|;
    var tt := Transpose(e.t, m);
    var de := Gather(d, e.dofs);
    var local := MatVec(MatMul(e.k, e.t, m), de);
    MatVecAssoc(e.k, e.t, de);
    MatVecAssoc(tt, e.k, MatVec(e.t, de));
    MatVecAssoc(MatMul(tt, e.k, m), e.t, de);
    assert MatVec(tt, local) == MatVec(GlobalElementStiffness(e), de);
    if e.qf.Some? {
      MatVecAdd(tt, local, e.qf.value);
    }
  }

  /** With every displacement zero a bar carries only its fixed-end forces. */
  lemma ElementForcesAtRest(e: Element, d: Vector)
    requires ValidElement(e, |d|) && IsZero(d)
    ensures ElementForces(e, d) == if e.qf.Some? then e.qf.value else Zeros(|e.dofs|)
  {
    var m := |e.dofs|;
    var de := Gather(d, e.dofs);
    MatVecZero(MatMul(e.k, e.t, m), de);
    var elastic := MatVec(MatMul(e.k, e.t, m), de);
    if e.qf.Some? {
      assert Add(elastic, e.qf.value) == e.qf.value;
    } else {
      assert elastic == Zeros(m);
    }
  }

  /** Row p holds the element forces that land on equation p, each weighted
      by that equation's displacement. */
  function WeightedMasks(d: Vector, ve: Vector, dofs: seq<int>): (w: Matrix)
    requires |ve| == |dofs|
    ensures IsMatrix(w, |d|, |dofs|)
    ensures forall p, i :: 0 <= p < |d| && 0 <= i < |dofs| ==> w[p][i] == d[p] * MaskedVector(ve, dofs, p)[i]
  {
    seq(|d|, p requires 0 <= p < |d| => Scale(d[p], MaskedVector(ve, dofs, p)))
  }

  /** Summed column by column, the weighted masks give the work on the element side. */
  lemma WeightedMasksTotal(d: Vector, ve: Vector, dofs: seq<int>)
    requires |ve| == |dofs| && forall i :: 0 <= i < |dofs| ==> 0 <= dofs[i] < |d|
    ensures Total(WeightedMasks(d, ve, dofs)) == Dot(Gather(d, dofs), ve)
  {
    var w := WeightedMasks(d, ve, dofs);
    var c := Mul(Gather(d, dofs), ve);
    forall p, i | 0 <= p < |d| && 0 <= i < |dofs|
      ensures w[p][i] == if dofs[i] == p then c[i] else 0.0
    {
    }
    SpreadTotal(w, c, dofs, |d|);
  }

  /** Summed row by row, the weighted masks give the work on the global side. */
  lemma WeightedMasksRows(d: Vector, ve: Vector, dofs: seq<int>)
    requires |ve| == |dofs|
    ensures RowSums(WeightedMasks(d, ve, dofs))
      == Mul(d, seq(|d|, p requires 0 <= p < |d| => Sum(MaskedVector(ve, dofs, p))))
  {
    var w := WeightedMasks(d, ve, dofs);
    var s := seq(|d|, p requires 0 <= p < |d| => Sum(MaskedVector(ve, dofs, p)));
    forall p | 0 <= p < |d|
      ensures RowSums(w)[p] == Mul(d, s)[p]
    {
      assert w[p] == Scale(d[p], MaskedVector(ve, dofs, p));
      SumScale(d[p], MaskedVector(ve, dofs, p));
    }
  }

  /** Reading displacements through an index list is the adjoint of scattering
      forces through it: the work of element forces `ve` on the gathered
      displacements equals the work of their scattered global vector on `d`. */
  lemma GatherScatterAdjoint(d: Vector, ve: Vector, dofs: seq<int>)
    requires |ve| == |dofs| && forall i :: 0 <= i < |dofs| ==> 0 <= dofs[i] < |d|
    ensures Dot(Gather(d, dofs), ve)
      == Dot(d, seq(|d|, p requires 0 <= p < |d| => Sum(MaskedVector(ve, dofs, p))))
  {
    WeightedMasksTotal(d, ve, dofs);
    WeightedMasksRows(d, ve, dofs);
  }
}

=== FILE: statics.dfy ===
/** Statics of one member in its local axes: the net axial force, net
    transverse force and net moment about end 1 of a set of end forces
    [N1, V1, M1, N2, V2, M2] on a member of a given length. */
module Statics {
  import opened LinAlg

  /** Net axial force, net transverse force and net moment about end 1. */
  datatype Balance = Balance(axial: real, shear: real, moment: real)

  const Balanced := Balance(0.0, 0.0, 0.0)

  /** The totals of six end forces; V2 acts at distance `length` from end 1. */
  function EndBalance(q: Vector, length: real): (r: Balance)
    requires |q| == 6
  {
    Balance(q[0] + q[3], q[1] + q[4], q[2] + q[5] + q[4] * length)
  }

  /** Totals of two loadings taken together. */
  function Combine(x: Balance, y: Balance): (r: Balance)
  {
    Balance(x.axial + y.axial, x.shear + y.shear, x.moment + y.moment)
  }

  /** The totals of a sum of end-force vectors are the sum of their totals. */
  lemma EndBalanceAdd(p: Vector, q: Vector, length: real)
    requires |p| == 6 && |q| == 6
    ensures EndBalance(Add(p, q), length) == Combine(EndBalance(p, length), EndBalance(q, length))
  {
    var s := Add(p, q);
    assert s[4] * length == p[4] * length + q[4] * length;
  }

  /** Zero end forces have zero totals. */
  lemma EndBalanceZeros(length: real)
    ensures EndBalance(Zeros(6), length) == Balanced
  {
    var z := Zeros(6);
    assert z[0] == 0.0 && z[1] == 0.0 && z[2] == 0.0 && z[3] == 0.0 && z[4] == 0.0 && z[5] == 0.0;
  }
}

=== FILE: structure.dfy ===
/** How the per-bar data meet the assembly: a bar's index list, its (k, T)
    pair and its accumulated fixed-end forces make up the element the
    assembly loops read, and the model's own bars satisfy everything those
    loops ask of their input. */
module Structure {
  import opened Common
  import opened LinAlg
  import opened Model
  import opened Numbering
  import opened Elements
  import opened Bars
  import opened Assembly
  import opened Statics
  import opened Recovery

  /** The assembly's view of a bar. A bar of unrecognised type has no (k, T)
      pair, so there is no element for it. */
  function BarElement(dofs: seq<int>, bar: Bar, qf: Option<Vector>): (r: Option<Element>)
    requires bar.length > 0.0
    ensures r.Some? <==> bar.kind == Truss || bar.kind == Frame
    ensures r.Some? ==> r.value.dofs == dofs && r.value.qf == qf
    ensures r.Some? ==> var m := 2 * DofsPerEnd(bar.kind);
      IsMatrix(r.value.k, m, m) && IsMatrix(r.value.t, m, m) && IsSymmetric(r.value.k)
  {
    match Matrices(bar)
    case None => None
    case Some(em) => Some(Element(dofs, em.k, em.t, qf))
  }

  /** Fixed-end forces sit only on frame bars and have six entries. */
  predicate FrameLoadsOnly(bars: seq<Bar>, qf: seq<Option<Vector>>)
  {
    |qf| == |bars| && forall i :: 0 <= i < |qf| ==> qf[i].Some? ==> bars[i].kind == Frame && |qf[i].value| == 6
  }

  /** Starting from no fixed-end forces, the bar-load step leaves them on
      frame bars only. */
  lemma BarLoadsOnFramesOnly(bars: seq<Bar>, loads: seq<BarLoad>)
    requires PositiveLengths(bars)
    ensures var r := ApplyBarLoads(bars, seq(|bars|, i => None), loads);
      r.Success? ==> FrameLoadsOnly(bars, r.value)
  {
    var none: seq<Option<Vector>> := seq(|bars|, i => None);
    ApplyBarLoadsSums(bars, none, loads);
    var r := ApplyBarLoads(bars, none, loads);
    if r.Success? {
      forall i | 0 <= i < |bars| && r.value[i].Some?
        ensures bars[i].kind == Frame && |r.value[i].value| == 6
      {
        assert Landed(bars, loads, i);
        var j :| 0 <= j < |loads| && Lands(bars, loads[j], i);
      }
    }
  }

  /** A recognised bar with known end nodes in a valid table gives an element
      whose indices lie in [0, DOFCount), whose shapes match and whose local
      stiffness is symmetric. */
  lemma BarElementValid(t: DofTable, bar: Bar, qf: Option<Vector>)
    requires ValidTable(t) && bar.length > 0.0 && (bar.kind == Truss || bar.kind == Frame)
    requires BarDofs(t, bar).Success?
    requires qf.Some? ==> bar.kind == Frame && |qf.value| == 6
    ensures var e := BarElement(BarDofs(t, bar).value, bar, qf).value;
      ValidElement(e, t.dofCount) && IsSymmetric(e.k)
  {
    BarDofsInRange(t, bar);
  }

  /** End to end: the elements built from a valid numbering, the bars' index
      lists and their fixed-end forces are valid assembly input, and the
      assembled global stiffness matrix is symmetric. */
  lemma ModelStiffnessSymmetric(t: DofTable, bars: seq<Bar>, ds: seq<seq<int>>, qf: seq<Option<Vector>>, es: seq<Element>)
    requires ValidTable(t) && PositiveLengths(bars) && FrameLoadsOnly(bars, qf)
    requires GenerateElementsDof(t, bars) == Success(ds)
    requires |es| == |bars| && forall i :: 0 <= i < |bars| ==> BarElement(ds[i], bars[i], qf[i]) == Some(es[i])
    ensures AllValid(es, t.dofCount) && IsSymmetric(GlobalStiffness(t.dofCount, es))
  {
    forall i | 0 <= i < |bars|
      ensures ValidElement(es[i], t.dofCount) && IsSymmetric(es[i].k)
    {
      BarElementValid(t, bars[i], qf[i]);
    }
    GlobalStiffnessSymmetric(t.dofCount, es);
  }

  /** A frame bar's recovered end forces have the totals of its fixed-end
      forces alone: the elastic part k·T·De is self-balanced whatever the
      displacements, so the end forces hold exactly the span loads. */
  lemma FrameForcesBalance(dofs: seq<int>, bar: Bar, qf: Option<Vector>, d: Vector)
    requires bar.length > 0.0 && bar.kind == Frame && (qf.Some? ==> |qf.value| == 6)
    requires ValidElement(BarElement(dofs, bar, qf).value, |d|)
    ensures EndBalance(ElementForces(BarElement(dofs, bar, qf).value, d), bar.length)
         == EndBalance(Base(qf), bar.length)
  {
    var e := BarElement(dofs, bar, qf).value;
    var de := Gather(d, dofs);
    var x := MatVec(e.t, de);
    var elastic := MatVec(MatMul(e.k, e.t, |dofs|), de);
    MatVecAssoc(e.k, e.t, de);
    FrameElasticEquilibrium(bar.area, bar.modulus, bar.inertia, bar.length, x);
    assert EndBalance(elastic, bar.length) == Balanced;
    if qf.Some? {
      EndBalanceAdd(elastic, qf.value, bar.length);
    }
  }

  /** End to end: after the bar loads are applied, the end forces recovered
      for a frame bar have no net axial force, a net transverse force equal
      to the total resultant of the loads on it and a net moment about end 1
      equal to their total first moment, for any displacement vector. */
  lemma FrameForcesBalanceLoads(bars: seq<Bar>, loads: seq<BarLoad>, i: nat, dofs: seq<int>, d: Vector)
    requires PositiveLengths(bars) && i < |bars| && bars[i].kind == Frame
    requires ApplyBarLoads(bars, seq(|bars|, _ => None), loads).Success?
    requires ValidElement(BarElement(dofs, bars[i], ApplyBarLoads(bars, seq(|bars|, _ => None), loads).value[i]).value, |d|)
    ensures var qf := ApplyBarLoads(bars, seq(|bars|, _ => None), loads).value;
      EndBalance(ElementForces(BarElement(dofs, bars[i], qf[i]).value, d), bars[i].length)
        == LandedLoad(bars, loads, i)
  {
    var none: seq<Option<Vector>> := seq(|bars|, _ => None);
    var qf := ApplyBarLoads(bars, none, loads).value;
    ApplyBarLoadsSums(bars, none, loads);
    var sum := LandedSum(bars, loads, i);
    if Landed(bars, loads, i) {
      AddZeros(sum);
      assert qf[i] == Some(sum);
    } else {
      NoneLanded(bars, loads, i);
      assert Base(qf[i]) == sum;
    }
    FrameForcesBalance(dofs, bars[i], qf[i], d);
    LandedSumBalance(bars, loads, i);
  }
}

=== FILE: tolerance.dfy ===
/** Comparisons with an absolute tolerance, used by the load-span guard. */
module Tolerance {

  const Tol: real := 0.00001

  /** `a` exceeds `b` by more than the tolerance. */
  predicate Gt(a: real, b: real)
  {
    a > b + Tol
  }

  /** As the program writes it: `a` is at least `b` plus the tolerance, so an
      `a` equal to `b` does NOT count as greater-or-equal. */
  predicate Ge(a: real, b: real)
  {
    a >= b + Tol
  }

  /** `a` and `b` differ by at most the tolerance. */
  predicate Eq(a: real, b: real)
  {
    (if a - b >= 0.0 then a - b else b - a) <= Tol
  }

  /** Exactly one of "a exceeds b", "a and b are equal within the tolerance"
      and "b exceeds a" holds; equality within the tolerance is symmetric and
      is the band [b - Tol, b + Tol]. */
  lemma Trichotomy(a: real, b: real)
    ensures Eq(a, b) <==> b - Tol <= a <= b + Tol
    ensures Eq(a, b) <==> Eq(b, a)
    ensures Eq(a, b) <==> !Gt(a, b) && !Gt(b, a)
    ensures !(Gt(a, b) && Gt(b, a))
  {
  }

  /** Greater-or-equal adds only the boundary a == b + Tol to greater-than:
      it holds on the edge of the equality band and never for a == b. */
  lemma GeBoundary(a: real, b: real)
    ensures Ge(a, b) <==> Gt(a, b) || a == b + Tol
    ensures Ge(a, b) && Eq(a, b) ==> a == b + Tol
    ensures !Ge(a, a) && !Gt(a, a) && Eq(a, a)
  {
  }
}
